=== FILE: README.md ===
# my-market in Dafny

A functional model of the rules in **my-market**, a neighbourhood second-hand
marketplace written with Next.js. The pages fetch listings from a hosted
backend, and a header lets the visitor pick or locate their neighbourhood
("dong"). The model covers the pure decisions those pages make:

- **Neighbourhood.** The header's table of nearby dongs and its lookup. The
  parsing of a reverse-geocoding reply into dong, gu and city. The choice
  between the Kakao provider, the OpenStreetMap Nominatim provider and the
  placeholder address. The selection and candidate list the header keeps in
  local storage: loaded at start-up, overwritten by a resolution, and partly
  overwritten by a manual pick.
- **Home page listings.** The relative-time label, the conversion of backend
  rows into displayed listings with their defaults, and the order in which
  fetched rows and sample listings are merged. The create and edit forms:
  open, close, prefill, price rule and the record each sends.
- **Collection operations.** The category filter and heading of the item
  list, the liked-id set, and My Page's two tabs over the sample listings.
- **Image upload.** The file checks and their order, extension extraction,
  the storage path, and removal.
- **Write page.** The sign-in check, the location prefill from storage, and
  the submit's validation order and record.
- **Listing card.** The status overlay and badge, the owner-only edit
  button, the like button and the detail route.
- **Samples.** The sample listings and the category list, with facts about
  them.

Every handler is a pure function from the old state to the new one. Each
input that comes from outside becomes a parameter:

- a provider's answer;
- the geolocation outcome;
- the elapsed seconds since a row was created;
- `parseFloat`, `Number` or `parseInt` of a price text (`None` stands for NaN);
- the clock and the random file-name suffix;
- the storage upload's result.

Local storage is a map from key to value. The dong list is kept in it as JSON
text, through a small list codec whose round trip is proved.

Modules: `Wrappers` (Option, Result), `Text` (ECMAScript trim, split, join,
decimal text), `ListCodec`, `Neighbourhoods`, `Geocoding`, `Location`
(`Header.js`), `Catalog` (`products.js`), `Seqs` (filter), `ItemList`,
`Likes`, `Listing` (`page.js`), `ItemCard`, `ImageUpload`, `WritePage`,
`MyPage`.

The comment at `src/app/page.js:73` says the samples come first in the merged
list. The code on line 74 puts the fetched rows first; the model follows the
code.

## Model

| member | source | states |
|---|---|---|
| Text.Trim | src/app/components/Header.js:151 | a trimmed part neither starts nor ends with ECMAScript white space |
| Text.TrimInfix | src/app/components/Header.js:151 | the trimmed text is the middle of the original, starting after the cut leading characters |
| Text.TrimCutsSpace | src/app/components/Header.js:151 | every character trim cuts, at either end, is ECMAScript white space |
| Text.TrimAllSpace | src/app/write/page.js:51 | text made only of white space, or empty, trims to the empty string |
| Text.Split | src/app/components/Header.js:151 | splitting on a character yields at least one piece; no piece contains the separator; joining the pieces restores the text |
| Text.SplitJoin | src/app/components/Header.js:151 | separator-free pieces are recovered exactly by splitting their join |
| Text.AfterLast | src/components/ImageUpload.jsx:32 | the text after the last separator is separator-free, a suffix preceded by the separator, or the whole text when there is no separator |
| Text.AfterLastIsLastPiece | src/components/ImageUpload.jsx:32 | the text after the last separator is the last piece of the split |
| Text.NatToDecimal | src/app/page.js:95-97 | the decimal text of a count is digits only, has no leading zero, and reads back as the count |
| Text.IntToDecimal | src/app/page.js:154 | `toString` of an integer price is its digits without a leading zero, with a minus sign exactly for negatives, and reads back as the price |
| ListCodec.DecodeEncode | src/app/components/Header.js:27 | parsing the JSON text of a stored dong list gives back the list that was stored |
| ListCodec.Unescape | src/app/components/Header.js:27 | the one-character JSON escapes denote `"`, `\`, `/`, backspace, form feed, newline, carriage return and tab; `\u` escapes are not modelled and read as invalid, as does every other character after a backslash |
| ListCodec.EscapeReadsAsOneChar | src/app/components/Header.js:27 | a valid escape inside a string literal reads as the one character it denotes, whatever follows |
| ListCodec.UnknownEscapeUnreadable | src/app/components/Header.js:27 | a backslash before a character that starts no JSON escape (neither a one-character escape nor `u`) makes the string literal unreadable, and a saved list starting with such a literal unparsable |
| ListCodec.EscapesReadAsJson | src/app/components/Header.js:27 | example: the saved text `["a\nb"]` reads as a list holding a newline, and `["\q"]` is unparsable |
| Neighbourhoods.EntriesGood | src/app/components/Header.js:195-219 | the table has 20 entries, each with five distinct names and its own key first |
| Neighbourhoods.KeysDistinct | src/app/components/Header.js:195-219 | no dong is a key twice |
| Neighbourhoods.NearbyDongs | src/app/components/Header.js:193-223 | a table key gets exactly its five listed names, key first, no duplicates; any other name gets the one-element list of itself |
| Geocoding.FirstNonEmpty | src/app/components/Header.js:154-156 | the first non-empty string of a chain of logical ors, or the fallback when all are empty |
| Geocoding.FindEndingWith | src/app/components/Header.js:154 | `find` over display parts returns the left-most part ending in one of the given characters, or nothing when none does |
| Geocoding.DisplayParts | src/app/components/Header.js:151 | the display name split on commas, each piece trimmed, piece for piece |
| Geocoding.ExtractDong | src/app/components/Header.js:154-156 | the dong is the left-most part ending in 동; failing that, the first non-empty of suburb, neighbourhood, village, town and hamlet; failing that '알 수 없는 동'; never empty |
| Geocoding.ExtractGu | src/app/components/Header.js:159-160 | the gu is city, county or city_district, whichever is first non-empty; failing those, the left-most part ending in 시 or 구; failing that "" |
| Geocoding.ExtractCity | src/app/components/Header.js:162 | the city is state, else province, else "" |
| Geocoding.ParseNominatim | src/app/components/Header.js:130-181 | an address comes back exactly for an OK response whose body has an address object and a display name; its fields are the extracted dong, gu, city and the display name |
| Geocoding.ReverseGeocode | src/app/components/Header.js:118-190 | the Kakao answer wins when there is one; next comes the parsed Nominatim reply; otherwise the placeholder address; without a Kakao answer the dong is never empty |
| Geocoding.ServerErrorGivesPlaceholder | src/app/components/Header.js:140-142 | a non-OK Nominatim status with no Kakao key yields the '내 동네' placeholder |
| Location.Initial | src/app/components/Header.js:9-10 | before loading, the selection is '내 동네', the list is empty, and storage is as given |
| Location.FirstVisitLoad | src/app/components/Header.js:9-41 | with nothing saved, loading keeps the initial selection and storage and offers the eight default dongs |
| Location.Load | src/app/components/Header.js:18-41 | a saved non-empty dong replaces the placeholder; a saved list is used as parsed, its string escapes read as JSON reads them and an unknown escape refused; no saved list gives the eight default dongs; unparsable saved text is an error; storage is only read |
| Location.Store | src/app/components/Header.js:90 | setting a storage key changes that key only |
| Location.ResolveCurrentLocation | src/app/components/Header.js:70-115 | no geolocation or a failed position request changes nothing and raises the matching alert; otherwise the resolved dong is selected and is in its nearby list (1 to 5 names); both are saved, and the saved list parses back to it; all other keys stay unchanged |
| Location.SelectDong | src/app/components/Header.js:226-229 | a manual pick changes the selection and its storage key only; the list is untouched, so a pick from the list stays in it |
| Location.ReloadAfterResolve | src/app/components/Header.js:18-41 | reloading after a resolution restores the resolved dong and list (an empty dong reads as unsaved) |
| Location.FailureThenReload | src/app/components/Header.js:73-77 | a failed or unsupported location request leaves what a reload shows unchanged |
| Location.ReloadAfterSelect | src/app/components/Header.js:226-229 | reloading after a non-empty pick shows that dong with the previously saved list |
| Catalog.SampleIds | src/data/products.js:3-99 | the eight samples are numbered 1 to 8 in order, so their ids are distinct |
| Catalog.SampleStatuses | src/data/products.js:3-99 | every sample is selling, reserved or sold, and has no owner and no description |
| Catalog.CategoriesShape | src/data/products.js:102-112 | nine distinct categories, '전체' first |
| Catalog.SampleCategories | src/data/products.js:3-99 | every sample category is one of the tabs and is not '전체' |
| Seqs.Filter | src/app/components/ItemList.jsx:13 | `filter` keeps exactly the accepted elements and never lengthens the list |
| Seqs.FilterCount | src/app/components/ItemList.jsx:13 | an accepted element occurs as often as in the input; a rejected one does not occur |
| Seqs.FilterAppend | src/app/components/ItemList.jsx:13 | filtering a concatenation filters each part and keeps their order |
| Seqs.FilterIdempotent | src/app/components/ItemList.jsx:13 | filtering twice by the same test filters once |
| ItemList.FilterByCategory | src/app/components/ItemList.jsx:11-13 | '전체' shows the list unchanged; any other tab shows exactly the listings of that category |
| ItemList.FilterByCategoryCount | src/app/components/ItemList.jsx:11-13 | a listing in the chosen category appears as often as in the full list; others do not appear |
| ItemList.FilterByCategoryIdempotent | src/app/components/ItemList.jsx:11-13 | filtering the filtered list again changes nothing |
| ItemList.FilterByCategoryAppend | src/app/components/ItemList.jsx:11-13 | the category filter keeps the order of two concatenated groups |
| ItemList.Heading | src/app/components/ItemList.jsx:32 | the heading names the tab and its digits read back as the filtered list's length |
| Likes.Toggle | src/app/components/ItemList.jsx:16-25 | toggling adds an absent id or removes a present one; every other id keeps its membership |
| Likes.ToggleTwice | src/app/mypage/page.js:84-94 | toggling the same id twice restores the set |
| Likes.ToggleCommutes | src/app/components/ItemList.jsx:16-25 | toggles of two ids give the same set in either order |
| Listing.Bucket | src/app/page.js:94-97 | under 60 seconds, negative ages included, is "just now"; otherwise whole minutes 1..59, whole hours 1..23, or whole days ≥ 1, each with the unit boundaries as the source's comparisons draw them |
| Listing.TimeAgo | src/app/page.js:89-98 | under 60 seconds the label is '방금 전'; otherwise it is the count of whole minutes (1-59), hours (1-23) or days (1 or more) that have elapsed, followed by '분 전', '시간 전' or '일 전'; an unparsable date gives "NaN일 전" |
| Listing.AgeTextInjective | src/app/page.js:94-97 | two ages with the same label are the same age |
| Listing.FromRow | src/app/page.js:58-71 | id, owner, title, price and description are copied; an empty location, image, status or category gets '위치 미정', the fixed image URL, 'selling' or '기타'; missing counters are 0; the time is the row's label |
| Listing.LoadProducts | src/app/page.js:46-86 | the fetched rows, converted in backend order, followed by all samples; an error, null data or no rows give the samples alone |
| Listing.UncategorisedOnlyUnderAll | src/app/page.js:69 | a fetched row without a category shows under '전체' and under no other tab |
| Listing.FetchedBeforeSamples | src/app/page.js:74 | under any tab, the fetched listings come before the samples |
| Listing.OpenEdit | src/app/page.js:149-162 | the edit form copies the listing's title, category, image and location; a missing description becomes ""; the price text is canonical decimal digits that read back as the price |
| Listing.CloseEdit | src/app/page.js:164-177 | closing the edit modal clears it, whichever listing was open: nothing is being edited, the form is the blank form (empty fields, category '디지털기기'), and there is no error |
| Listing.CloseCreate | src/app/page.js:117-128 | closing the create modal clears it, however it was filled: the form is the blank form (empty fields, category '디지털기기'), and there is no error |
| Listing.WriteClick | src/app/page.js:106-114 | a visitor who is not signed in is sent to sign in with the modal untouched; otherwise the modal opens on its form with no error |
| Listing.CheckPrice | src/app/page.js:186-189 | a price is refused exactly when it is NaN or negative; zero passes |
| Listing.CreateItem | src/app/page.js:179-203 | the price is checked before the user; an accepted record is 'selling' with the parsed price, and gets the default image and '위치 미정' when those fields are empty |
| Listing.EditItem | src/app/page.js:223-248 | price, then listing, then user are checked, and the edit succeeds exactly when all three pass; the fields are sent as typed; the update targets exactly the row with the listing's id owned by the current user |
| Listing.ZeroPriceAccepted | src/app/page.js:230-233 | both home-page forms accept a price of zero |
| ItemCard.OverlayHasBadge | src/app/components/ItemCard.jsx:34-37 | a card is greyed out exactly when it carries a status badge |
| ItemCard.Badge | src/app/components/ItemCard.jsx:34-37 | no badge when selling; '예약중' exactly for 'reserved'; '거래완료' for any other status |
| ItemCard.EditShownExactlyToOwner | src/app/components/ItemCard.jsx:51 | the edit button appears only on a listing with an owner, only to that owner and only with an edit handler; with a handler the owner always sees it |
| ItemCard.SamplesNeverEditable | src/app/components/ItemCard.jsx:51 | no sample listing ever shows the edit button |
| ItemCard.EditButtonTargetsOwnRow | src/app/page.js:246-247 | editing from a visible edit button yields an update that matches exactly the rows with that listing's id and owner |
| ItemCard.LikeClick | src/app/components/ItemCard.jsx:67 | a heart click flips the liked state of every card with that id and of no other card |
| ItemCard.LikeClickTwice | src/app/components/ItemCard.jsx:67 | two clicks on the same heart restore the liked set |
| ItemCard.CardRoute | src/app/components/ItemCard.jsx:12 | the route is '/items/' followed by the id's decimal text |
| ItemCard.CardRouteIdentifies | src/app/components/ItemCard.jsx:12 | the id reads back from the route, so different ids never share a route |
| ImageUpload.Validate | src/components/ImageUpload.jsx:13-26 | no file, then size over 5 MiB, then a MIME type not starting 'image/' are refused in that order; only a file passing all three is accepted |
| ImageUpload.ExactLimitAccepted | src/components/ImageUpload.jsx:17 | exactly 5 MiB passes; one byte more is refused for size |
| ImageUpload.Extension | src/components/ImageUpload.jsx:32 | the extension is the dot-free text after the last dot, or the whole name when there is no dot |
| ImageUpload.ExtensionIsLastPiece | src/components/ImageUpload.jsx:32 | the extension is exactly the last piece of splitting the name on dots |
| ImageUpload.StoragePath | src/components/ImageUpload.jsx:33 | the path starts with the user folder and '/', continues with the timestamp digits and '_', and ends with '.' and the extension |
| ImageUpload.Open | src/components/ImageUpload.jsx:10 | a non-empty form value is previewed as is; an empty one shows no preview |
| ImageUpload.FileChange | src/components/ImageUpload.jsx:12-58 | a refused file changes nothing and starts no upload; a valid one is uploaded under its storage path; only a stored upload replaces preview and form value with the public URL |
| ImageUpload.Remove | src/components/ImageUpload.jsx:60-63 | removal clears the preview and reports '' |
| ImageUpload.RemoveThenCreate | src/components/ImageUpload.jsx:60-63 | after removal, a listing created on the home page gets the default image |
| WritePage.CheckAuth | src/app/write/page.js:26-40 | without a user the visitor is redirected; otherwise a saved non-empty dong fills the location field and the rest of the form is kept |
| WritePage.Submit | src/app/write/page.js:42-78 | sign-in, then the trimmed title, then the price are checked; the price is refused when empty or ≤ 0, while non-numeric text passes; an accepted record is 'selling', carries the parseInt price and the location as typed, and gets this page's default image when the image field is empty |
| WritePage.ZeroPriceRules | src/app/write/page.js:55-58 | zero is refused here while the home page's forms accept it |
| WritePage.BlankTitleRefused | src/app/write/page.js:51-54 | a signed-in submit whose title is empty or all white space is refused for the title, whatever the price |
| WritePage.PickedDongIsPrefilled | src/app/write/page.js:36-39 | after a non-empty pick in the header, the write page opens with that dong as location |
| MyPage.CheckUser | src/app/mypage/page.js:26-55 | no user redirects; a found profile row fills nickname and avatar, each missing one read as ''; no row keeps the blank profile |
| MyPage.DisplayName | src/app/mypage/page.js:132 | the nickname when non-empty, else '사용자'; never empty |
| MyPage.NoRowGivesDefaultName | src/app/mypage/page.js:44-49 | a user without a profile row is greeted as '사용자' |
| MyPage.UpdateProfile | src/app/mypage/page.js:62-69 | the upsert is the user's own row with the edited nickname and avatar and the save time |
| MyPage.SaveThenLoad | src/app/mypage/page.js:44-69 | loading a saved profile gives the profile that was saved |
| MyPage.MyProducts | src/app/mypage/page.js:97 | the "my listings" tab holds exactly the samples numbered 3 or lower |
| MyPage.MyProductsAreFirstThree | src/app/mypage/page.js:97 | that tab is exactly the first three samples, in order |
| MyPage.LikedProducts | src/app/mypage/page.js:100 | the liked tab holds exactly the samples whose id is liked |
| MyPage.LikedListedOnce | src/app/mypage/page.js:100 | each liked sample is listed exactly once, and an unliked one not at all |
| MyPage.ToggleMovesOneSample | src/app/mypage/page.js:84-100 | toggling an id moves the sample with that id into or out of the liked tab; every other sample stays where it was |

## Left out

- Network and backend calls are inputs, not models. This covers the hosted backend's queries, inserts, updates and upserts, sign-in and sign-out, and the storage upload. The requests the pages build are modelled; what the backend does with them is not.
- The Kakao map SDK is not part of this model. Its answer is an input: not configured, failed, or an address.
- The Nominatim HTTP request and its JSON decoding: the outcome is an input. A network failure, a non-OK status, or a decoded body with optional `address` and `display_name`.
- Browser geolocation and its options are inputs: unsupported, failed, or a position.
- Loading flags, the auth-state subscription, and the ordering of overlapping asynchronous requests are not modelled.
- `Date`, `Date.now` and `Math.random` are parameters: elapsed seconds, a timestamp, and a file-name suffix. A `created_at` that does not parse is `None`; a null `created_at` (the epoch to `new Date`) is simply a large elapsed value.
- Listing.CheckPrice: `parseFloat`, `Number` and `parseInt` are inputs, so how a price text parses is not modelled. `Number.prototype.toLocaleString` and `toUpperCase` are left out.
- ListCodec.DecodeEncode: the encoder escapes only `"` and `\`, where `JSON.stringify` also escapes control characters. The round trip is proved for the encoder as modelled.
- ListCodec.Unescape: `\u` escapes (four hex digits) are not decoded; the reader refuses them, where `JSON.parse` reads `["\u0041"]` as `["A"]`. Dafny characters cannot hold the lone surrogates such escapes may denote.
- Location.Load: saved text is assumed to be in the compact form the codec writes. White space between tokens and `\u` escapes are read as unparsable, and raw control characters inside a string are accepted; `JSON.parse` does the opposite in each case. Saved JSON that is not a list of strings is not modelled.
- Neighbourhoods.NearbyDongs: looking up a name that is an inherited property of a JavaScript object (such as `constructor`) is not modelled. Every name not in the table gets the one-element list.
- Listing.OpenEdit: listed prices are assumed whole and below 10^21 in magnitude. A fractional price, which the home-page create can insert, cannot be represented in a row or listing, and `toString` of it (or its exponent form from 10^21 up) is not modelled. The same bound applies to ids in ItemCard.CardRoute.
- Location.ResolveCurrentLocation: the alert for a geocoding exception is left out, because the modelled `reverseGeocode` never throws.
- The sign-in page, its password-length check, the bottom navigation, the layout, the item detail page and all markup are outside this model.
- My Page's avatar initial (the first character upper-cased) and its tab switching are not modelled.
- Concrete literal examples of display strings are left out: their proofs unfold `Split` and `Trim` over literal text and cost too much. The general lemmas cover them.

=== FILE: catalog.dfy ===
/** The listing record shown by the item list and cards, and the built-in
    sample listings and category list the pages fall back on. */
module Catalog {
  import opened Wrappers

  /** A listing as displayed. Sample listings have no owner and no
      description. */
  datatype Product = Product(
    id: int, userId: Option<string>, title: string, price: int,
    location: string, time: string, image: string, status: string,
    likes: int, chatCount: int, category: string, description: Option<string>)

  const AllCategory := "전체"

  /** The category tabs, "all" first. */
  const Categories: seq<string> := [
    AllCategory, "디지털기기", "생활가전", "가구/인테리어", "생활/주방",
    "유아동", "유아도서", "여성의류", "남성의류"
  ]

  const Statuses: set<string> := {"selling", "reserved", "sold"}

  function Sample(id: int, title: string, price: int, location: string, time: string,
                  image: string, status: string, likes: int, chatCount: int, category: string): Product
  {
    Product(id, None, title, price, location, time, image, status, likes, chatCount, category, None)
  }

  /** The eight sample listings. */
  const Samples: seq<Product> := [
    Sample(1, "아이폰 14 Pro 256GB 딥퍼플", 950000, "신장동", "10분 전",
      "https://images.unsplash.com/photo-1678652197831-2d180705cd2c?w=400&h=400&fit=crop",
      "selling", 12, 5, "디지털기기"),
    Sample(2, "LG 통돌이 세탁기 12kg", 150000, "덕풍동", "1시간 전",
      "https://images.unsplash.com/photo-1626806787461-102c1bfaaea1?w=400&h=400&fit=crop",
      "selling", 8, 3, "생활가전"),
    Sample(3, "까사미아 3인용 소파 (거의 새것)", 280000, "풍산동", "2시간 전",
      "https://images.unsplash.com/photo-1555041469-a586c61ea9bc?w=400&h=400&fit=crop",
      "reserved", 24, 15, "가구/인테리어"),
    Sample(4, "다이슨 무선청소기 V11", 320000, "신장동", "3시간 전",
      "https://images.unsplash.com/photo-1558317374-067fb5f30001?w=400&h=400&fit=crop",
      "selling", 18, 8, "생활가전"),
    Sample(5, "삼성 갤럭시 탭 S8 128GB", 420000, "미사동", "5시간 전",
      "https://images.unsplash.com/photo-1544244015-0df4b3ffc6b0?w=400&h=400&fit=crop",
      "sold", 32, 22, "디지털기기"),
    Sample(6, "나이키 에어맥스 270 (새상품)", 89000, "창우동", "6시간 전",
      "https://images.unsplash.com/photo-1542291026-7eec264c27ff?w=400&h=400&fit=crop",
      "selling", 15, 7, "남성의류"),
    Sample(7, "유아용 원목 책장", 45000, "신장동", "8시간 전",
      "https://images.unsplash.com/photo-1598300056393-4aac492f4344?w=400&h=400&fit=crop",
      "selling", 6, 2, "유아동"),
    Sample(8, "여름 원피스 5종 세트", 35000, "덕풍동", "1일 전",
      "https://images.unsplash.com/photo-1572804013309-59a88b7e92f1?w=400&h=400&fit=crop",
      "selling", 22, 11, "여성의류")
  ]

  /** The samples are numbered 1 to 8 in order, so no two share an id. */
  lemma SampleIds()
    ensures |Samples| == 8
    ensures forall i :: 0 <= i < |Samples| ==> Samples[i].id == i + 1
    ensures forall i, j :: 0 <= i < j < |Samples| ==> Samples[i].id != Samples[j].id
  {
  }

  /** Every sample has one of the three statuses, no owner and no description. */
  lemma SampleStatuses()
    ensures forall p :: p in Samples ==> p.status in Statuses && p.userId.None? && p.description.None?
  {
  }

  /** The nine categories are distinct and "all" comes first. */
  lemma CategoriesShape()
    ensures |Categories| == 9 && Categories[0] == AllCategory
    ensures forall i, j :: 0 <= i < j < |Categories| ==> Categories[i] != Categories[j]
  {
  }

  /** Every sample sits in a real category, never in "all". */
  lemma SampleCategories()
    ensures forall p :: p in Samples ==> p.category in Categories && p.category != AllCategory
  {
  }
}

=== FILE: geocoding.dfy ===
/** Reverse geocoding in the header: the Kakao provider when it is configured
    and answers, otherwise an OpenStreetMap Nominatim reply, otherwise a fixed
    placeholder address. Provider answers are inputs; the model is the
    decision over them and the parsing of the Nominatim reply. */
module Geocoding {
  import opened Wrappers
  import opened Text

  /** What `reverseGeocode` hands back. */
  datatype Address = Address(dong: string, gu: string, city: string, fullAddress: string)

  /** The fields read from Nominatim's `address` object; a missing field is
      the empty string, since both are falsy to `||`. */
  datatype OsmAddress = OsmAddress(
    suburb: string, neighbourhood: string, village: string, town: string, hamlet: string,
    city: string, county: string, cityDistrict: string,
    state: string, province: string)

  /** A decoded Nominatim body: its `address` object and `display_name`, each
      possibly absent. */
  datatype NominatimReply = NominatimReply(address: Option<OsmAddress>, displayName: Option<string>)

  /** How the Nominatim request ended. `body` is `None` when the body does not
      parse as JSON or parses to a falsy value. */
  datatype NominatimOutcome = NetworkFailure | Response(ok: bool, body: Option<NominatimReply>)

  /** How the Kakao provider ended: skipped because no API key is configured
      (or there is no browser window), failed, or answered. */
  datatype KakaoOutcome = KakaoNotConfigured | KakaoFailed | KakaoFound(address: Address)

  const UnknownDong := "알 수 없는 동"
  const PlaceholderDong := "내 동네"

  /** The address returned when every provider fails. */
  const DefaultAddress := Address(PlaceholderDong, "", "", "위치를 가져올 수 없습니다")

  /** The first non-empty string of `xs`, or `fallback` when all are empty. */
  function FirstNonEmpty(xs: seq<string>, fallback: string): (r: string)
    ensures (forall k :: 0 <= k < |xs| ==> xs[k] == "") ==> r == fallback
    ensures forall i :: 0 <= i < |xs| && xs[i] != "" && (forall k :: 0 <= k < i ==> xs[k] == "") ==> r == xs[i]
  {
    if xs == [] then fallback else Or(xs[0], FirstNonEmpty(xs[1..], fallback))
  }

  predicate EndsWithAny(s: string, suffixes: set<char>) {
    |s| > 0 && s[|s| - 1] in suffixes
  }

  /** `parts.find(p => ...endsWith(...))`, as the index of the left-most part
      ending with one of the given characters. */
  function FindEndingWith(parts: seq<string>, suffixes: set<char>): (r: Option<nat>)
    ensures r.Some? ==> r.value < |parts| && EndsWithAny(parts[r.value], suffixes)
    ensures r.Some? ==> forall k :: 0 <= k < r.value ==> !EndsWithAny(parts[k], suffixes)
    ensures r.None? ==> forall k :: 0 <= k < |parts| ==> !EndsWithAny(parts[k], suffixes)
  {
    if parts == [] then None
    else if EndsWithAny(parts[0], suffixes) then Some(0)
    else match FindEndingWith(parts[1..], suffixes)
      case None => None
      case Some(i) => Some(i + 1)
  }

  /** `display_name.split(',').map(part => part.trim())`. */
  function DisplayParts(displayName: string): (parts: seq<string>)
    ensures |parts| == |Split(displayName, ',')|
    ensures forall k :: 0 <= k < |parts| ==> parts[k] == Trim(Split(displayName, ',')[k])
  {
    var pieces := Split(displayName, ',');
    seq(|pieces|, k requires 0 <= k < |pieces| => Trim(pieces[k]))
  }

  /** The dong: the left-most display part ending in 동; failing that the first
      non-empty of suburb, neighbourhood, village, town and hamlet; failing
      that the placeholder. Never empty. */
  function ExtractDong(parts: seq<string>, a: OsmAddress): (dong: string)
    ensures dong != ""
    ensures forall i ::
      (0 <= i < |parts| && EndsWithAny(parts[i], {'동'}) && forall k :: 0 <= k < i ==> !EndsWithAny(parts[k], {'동'}))
      ==> dong == parts[i]
    ensures (forall k :: 0 <= k < |parts| ==> !EndsWithAny(parts[k], {'동'})) ==>
      dong == FirstNonEmpty([a.suburb, a.neighbourhood, a.village, a.town, a.hamlet], UnknownDong)
  {
    match FindEndingWith(parts, {'동'})
    case Some(i) => parts[i]
    case None => FirstNonEmpty([a.suburb, a.neighbourhood, a.village, a.town, a.hamlet], UnknownDong)
  }

  /** The gu: the first non-empty of city, county and city_district; failing
      those the left-most display part ending in 시 or 구; failing that "". */
  function ExtractGu(parts: seq<string>, a: OsmAddress): (gu: string)
    ensures a.city != "" ==> gu == a.city
    ensures a.city == "" && a.county != "" ==> gu == a.county
    ensures a.city == "" && a.county == "" && a.cityDistrict != "" ==> gu == a.cityDistrict
    ensures a.city == "" && a.county == "" && a.cityDistrict == "" ==>
      && ((forall k :: 0 <= k < |parts| ==> !EndsWithAny(parts[k], {'시', '구'})) ==> gu == "")
      && (forall i ::
            (0 <= i < |parts| && EndsWithAny(parts[i], {'시', '구'})
             && forall k :: 0 <= k < i ==> !EndsWithAny(parts[k], {'시', '구'}))
            ==> gu == parts[i])
  {
    var found := match FindEndingWith(parts, {'시', '구'})
      case Some(i) => parts[i]
      case None => "";
    Or(a.city, Or(a.county, Or(a.cityDistrict, found)))
  }

  /** The city: state, else province, else "". */
  function ExtractCity(a: OsmAddress): (city: string)
    ensures a.state != "" ==> city == a.state
    ensures a.state == "" ==> city == a.province
  {
    Or(a.state, Or(a.province, ""))
  }

  /** The address parsed from a Nominatim outcome, or `None` where the source
      falls through to the placeholder: a failed request, a non-OK status, a
      body without an address object, or a missing `display_name` (whose
      `split` throws and is caught). */
  function ParseNominatim(outcome: NominatimOutcome): (r: Option<Address>)
    ensures r.Some? <==>
      && outcome.Response? && outcome.ok && outcome.body.Some?
      && outcome.body.value.address.Some? && outcome.body.value.displayName.Some?
    ensures r.Some? ==>
      var name := outcome.body.value.displayName.value;
      var a := outcome.body.value.address.value;
      && r.value.dong == ExtractDong(DisplayParts(name), a)
      && r.value.gu == ExtractGu(DisplayParts(name), a)
      && r.value.city == ExtractCity(a)
      && r.value.fullAddress == name
  {
    match outcome
    case NetworkFailure => None
    case Response(ok, body) =>
      if !ok then None
      else match body
        case None => None
        case Some(reply) =>
          match (reply.address, reply.displayName)
          case (Some(a), Some(name)) =>
            var parts := DisplayParts(name);
            Some(Address(ExtractDong(parts, a), ExtractGu(parts, a), ExtractCity(a), name))
          case _ => None
  }

  /** `reverseGeocode`: Kakao's answer when it is configured and answers, then
      the parsed Nominatim reply, then the placeholder. It always yields an
      address. */
  function ReverseGeocode(kakao: KakaoOutcome, nominatim: NominatimOutcome): (a: Address)
    ensures kakao.KakaoFound? ==> a == kakao.address
    ensures !kakao.KakaoFound? && ParseNominatim(nominatim).None? ==> a == DefaultAddress
    ensures !kakao.KakaoFound? && ParseNominatim(nominatim).Some? ==> a == ParseNominatim(nominatim).value
    ensures !kakao.KakaoFound? ==> a.dong != ""
  {
    match kakao
    case KakaoFound(address) => address
    case _ =>
      match ParseNominatim(nominatim)
      case Some(address) => address
      case None => DefaultAddress
  }

  /** With no Kakao key and an HTTP error from Nominatim the placeholder
      address comes back; nothing is raised. */
  lemma ServerErrorGivesPlaceholder(body: Option<NominatimReply>)
    ensures ReverseGeocode(KakaoNotConfigured, Response(false, body)).dong == PlaceholderDong
  {
  }
}

=== FILE: image_upload.dfy ===
/** The image picker of the listing forms: the checks a chosen file must
    pass, the storage path it is uploaded under, and the preview and form
    value it leaves behind. The upload itself, the clock and the random
    suffix are inputs. */
module ImageUpload {
  import opened Wrappers
  import opened Text
  import Listing

  /** The chosen file as the browser describes it. */
  datatype File = File(name: string, size: nat, mimeType: string)

  /** The largest accepted file: 5 MiB. */
  const MaxSize: nat := 5 * 1024 * 1024

  const ImagePrefix := "image/"

  /** Why a file change does not start an upload. */
  datatype Rejection = NoFile | TooLarge | NotImage

  /** The checks of `handleFileChange`, in order: a file must have been
      chosen, must not exceed 5 MiB, and must have a MIME type starting with
      "image/". An oversized file is refused for its size whatever its type. */
  function Validate(file: Option<File>): (r: Result<File, Rejection>)
    ensures file.None? <==> r == Err(NoFile)
    ensures file.Some? && file.value.size > MaxSize ==> r == Err(TooLarge)
    ensures file.Some? && file.value.size <= MaxSize && !StartsWith(file.value.mimeType, ImagePrefix) ==>
      r == Err(NotImage)
    ensures r.Ok? <==>
      file.Some? && file.value.size <= MaxSize && StartsWith(file.value.mimeType, ImagePrefix)
    ensures r.Ok? ==> r.value == file.value
  {
    match file
    case None => Err(NoFile)
    case Some(f) =>
      if f.size > MaxSize then Err(TooLarge)
      else if !StartsWith(f.mimeType, ImagePrefix) then Err(NotImage)
      else Ok(f)
  }

  /** The text after the last dot of a file name, or the whole name when
      it has no dot. */
  function Extension(name: string): (ext: string)
    ensures '.' !in ext
    ensures '.' !in name ==> ext == name
    ensures '.' in name ==>
      |ext| < |name| && name[|name| - |ext|..] == ext && name[|name| - |ext| - 1] == '.'
  {
    AfterLast(name, '.')
  }

  /** The extension is what `name.split('.').pop()` yields. */
  lemma ExtensionIsLastPiece(name: string)
    ensures Extension(name) == Last(Split(name, '.'))
  {
    AfterLastIsLastPiece(name, '.');
  }

  /** The text a template literal shows for the user id: the id, or
      "undefined" when no user is signed in. */
  function UserSegment(userId: Option<string>): string {
    match userId
    case Some(u) => u
    case None => "undefined"
  }

  /** The storage path of an upload: the user's folder, then the timestamp,
      an underscore, the random suffix, a dot and the file's extension. */
  function StoragePath(userId: Option<string>, name: string, stamp: nat, suffix: string): (path: string)
    ensures var folder := UserSegment(userId) + "/";
      |folder| < |path| && path[..|folder|] == folder
    ensures var ext := "." + Extension(name);
      |ext| <= |path| && path[|path| - |ext|..] == ext
    ensures var folder := UserSegment(userId) + "/"; var stampText := NatToDecimal(stamp);
      |folder| + |stampText| < |path| && path[|folder|..|folder| + |stampText|] == stampText
      && path[|folder| + |stampText|] == '_'
  {
    var folder := UserSegment(userId) + "/";
    var ext := "." + Extension(name);
    PathShape(folder, NatToDecimal(stamp), suffix, ext);
    folder + NatToDecimal(stamp) + "_" + suffix + ext
  }

  /** Where each piece of a storage path sits. */
  lemma PathShape(folder: string, stampText: string, suffix: string, ext: string)
    requires |folder| >= 1
    ensures var path := folder + stampText + "_" + suffix + ext;
      && |folder| + |stampText| < |path|
      && path[..|folder|] == folder
      && path[|folder|..|folder| + |stampText|] == stampText
      && path[|folder| + |stampText|] == '_'
      && |ext| <= |path| && path[|path| - |ext|..] == ext
  {
    var path := folder + stampText + "_" + suffix + ext;
    Halves(folder + stampText + "_" + suffix, ext);
    Halves(folder + stampText, "_" + suffix + ext);
    assert path == (folder + stampText) + ("_" + suffix + ext);
    Halves(folder, stampText);
  }

  /** How the storage upload ended: failed, or stored with this public URL. */
  datatype StoreOutcome = StoreFailed | Stored(publicUrl: string)

  /** The picker's preview and the form value it last reported. */
  datatype Picker = Picker(preview: Option<string>, value: string)

  /** The picker as first shown: a non-empty form value is previewed, and
      an empty one (after a removal, say) shows no preview. */
  function Open(value: string): (p: Picker)
    ensures p.value == value
    ensures p.preview.Some? <==> value != ""
    ensures p.preview.Some? ==> p.preview.value == value
  {
    Picker(if value != "" then Some(value) else None, value)
  }

  /** What a file change did: the new picker, why it stopped early if it
      did, and the path an upload was attempted under if one was. */
  datatype Change = Change(picker: Picker, rejected: Option<Rejection>, uploadPath: Option<string>)

  /** `handleFileChange`. A file that fails a check changes nothing and no
      upload starts; a valid one is uploaded under its storage path, and only
      a successful upload replaces the preview and the form value with the
      public URL. */
  function FileChange(p: Picker, file: Option<File>, userId: Option<string>, stamp: nat, suffix: string,
                      outcome: StoreOutcome): (c: Change)
    ensures Validate(file).Err? ==>
      c.picker == p && c.uploadPath.None? && c.rejected == Some(Validate(file).error)
    ensures Validate(file).Ok? ==>
      c.rejected.None? && c.uploadPath == Some(StoragePath(userId, file.value.name, stamp, suffix))
    ensures Validate(file).Ok? && outcome.Stored? ==>
      c.picker == Picker(Some(outcome.publicUrl), outcome.publicUrl)
    ensures outcome.StoreFailed? ==> c.picker == p
  {
    match Validate(file)
    case Err(why) => Change(p, Some(why), None)
    case Ok(f) =>
      var path := StoragePath(userId, f.name, stamp, suffix);
      match outcome
      case StoreFailed => Change(p, None, Some(path))
      case Stored(url) => Change(Picker(Some(url), url), None, Some(path))
  }

  /** `handleRemove`: no preview, and the form's image field is emptied. */
  function Remove(p: Picker): (q: Picker)
    ensures q.preview.None? && q.value == ""
  {
    Picker(None, "")
  }

  /** After removing the picture, a listing created from the form gets the
      default image. */
  lemma RemoveThenCreate(p: Picker, user: string, form: Listing.Form, parsed: real)
    requires parsed >= 0.0
    ensures var f := form.(imageUrl := Remove(p).value);
      var r := Listing.CreateItem(Some(user), f, Some(parsed));
      r.Ok? && r.value.imageUrl == Listing.DefaultImage
  {
  }

  /** A file of exactly 5 MiB passes the size check. */
  lemma ExactLimitAccepted(name: string, mimeType: string)
    requires StartsWith(mimeType, ImagePrefix)
    ensures Validate(Some(File(name, 5242880, mimeType))).Ok?
    ensures Validate(Some(File(name, 5242881, mimeType))) == Err(TooLarge)
  {
  }
}

=== FILE: item_card.dfy ===
/** One listing card: its status overlay, the owner-only edit button, the
    like button and the route a click on the card opens. */
module ItemCard {
  import opened Wrappers
  import opened Text
  import opened Catalog
  import Listing
  import Likes

  /** A card greys its image out for every status but "selling". */
  predicate ShowsOverlay(p: Product) {
    p.status != "selling"
  }

  /** The badge on a greyed-out card: "예약중" for "reserved" and "거래완료"
      for any other status, including ones the catalog does not define. */
  function Badge(p: Product): (text: Option<string>)
    ensures text.None? <==> p.status == "selling"
    ensures text.Some? ==> (text.value == "예약중" <==> p.status == "reserved")
    ensures text.Some? && p.status != "reserved" ==> text.value == "거래완료"
  {
    if !ShowsOverlay(p) then None
    else if p.status == "reserved" then Some("예약중")
    else Some("거래완료")
  }

  /** The edit button appears only for a signed-in user (a non-empty id) who
      owns the listing, and only when the list was given an edit handler. */
  predicate ShowsEdit(p: Product, currentUserId: Option<string>, hasEditHandler: bool) {
    Truthy(currentUserId) && p.userId == currentUserId && hasEditHandler
  }

  /** Exactly the greyed-out cards carry a badge. */
  lemma OverlayHasBadge(p: Product)
    ensures ShowsOverlay(p) <==> Badge(p).Some?
  {
  }

  /** Only a listing with an owner ever shows the edit button, and only to
      that owner; the owner sees it whenever the list can edit. */
  lemma EditShownExactlyToOwner(p: Product, currentUserId: Option<string>, hasEditHandler: bool)
    ensures ShowsEdit(p, currentUserId, hasEditHandler) ==>
      hasEditHandler && Truthy(p.userId) && currentUserId == p.userId
    ensures hasEditHandler && Truthy(p.userId) ==> ShowsEdit(p, p.userId, hasEditHandler)
  {
  }

  /** Whether a card's heart is filled: the list's liked set holds its id. */
  predicate IsLiked(liked: set<int>, p: Product) {
    p.id in liked
  }

  /** A click on a card's heart hands its id to the list's toggle: that
      card's heart flips, and so does the heart of every card with the same
      id (a fetched listing numbered like a sample, say); every other card
      keeps its state. */
  function LikeClick(liked: set<int>, p: Product): (r: set<int>)
    ensures IsLiked(r, p) <==> !IsLiked(liked, p)
    ensures forall q: Product :: q.id == p.id ==> (IsLiked(r, q) <==> !IsLiked(liked, q))
    ensures forall q: Product :: q.id != p.id ==> (IsLiked(r, q) <==> IsLiked(liked, q))
  {
    Likes.Toggle(liked, p.id)
  }

  /** Two clicks on the same heart undo each other. */
  lemma LikeClickTwice(liked: set<int>, p: Product)
    ensures LikeClick(LikeClick(liked, p), p) == liked
  {
    Likes.ToggleTwice(liked, p.id);
  }

  const ItemsPrefix := "/items/"

  /** The detail page a click on the card opens: "/items/" and the id in
      decimal. */
  function CardRoute(p: Product): (route: string)
    ensures |route| > |ItemsPrefix| && route[..|ItemsPrefix|] == ItemsPrefix
    ensures var tail := route[|ItemsPrefix|..];
      tail != [] && AllDigits(if tail[0] == '-' then tail[1..] else tail)
  {
    ItemsPrefix + IntToDecimal(p.id)
  }

  /** The id can be read back from the route, so two listings with different
      ids never share a detail page. */
  lemma CardRouteIdentifies(p: Product, q: Product)
    ensures var tail := CardRoute(p)[|ItemsPrefix|..];
      SignedDecimalValue(tail) == p.id
    ensures CardRoute(p) == CardRoute(q) ==> p.id == q.id
  {
    assert CardRoute(p)[|ItemsPrefix|..] == IntToDecimal(p.id);
    assert CardRoute(q)[|ItemsPrefix|..] == IntToDecimal(q.id);
  }

  /** The sample listings have no owner, so no user ever sees their edit
      button. */
  lemma SamplesNeverEditable(i: nat, currentUserId: Option<string>, hasEditHandler: bool)
    requires i < |Samples|
    ensures !ShowsEdit(Samples[i], currentUserId, hasEditHandler)
  {
  }

  /** Opening the edit modal from a card's button and saving it produces a
      request that changes exactly that listing's row and only while its
      owner is signed in: rows with another id or another owner are left
      alone. */
  lemma EditButtonTargetsOwnRow(p: Product, u: string, form: Listing.Form, parsed: Option<real>, row: Listing.Row)
    requires ShowsEdit(p, Some(u), true)
    requires Listing.CheckPrice(parsed).Ok?
    ensures var m := Listing.OpenEdit(p);
      var r := Listing.EditItem(Some(u), m.editing, form, parsed);
      && r.Ok?
      && (Listing.Targets(r.value, row) <==> row.id == p.id && row.userId == p.userId)
  {
  }
}

=== FILE: item_list.dfy ===
/** The item list: filtering by the selected category tab and the heading
    that counts what is shown. */
module ItemList {
  import opened Text
  import opened Seqs
  import opened Catalog

  /** `filteredProducts`: every listing for the "all" tab, otherwise exactly
      the listings of the selected category, each as often as it occurs. */
  function FilterByCategory(products: seq<Product>, category: string): (r: seq<Product>)
    ensures category == AllCategory ==> r == products
    ensures |r| <= |products|
    ensures forall p :: p in r <==> p in products && (category == AllCategory || p.category == category)
  {
    if category == AllCategory then products
    else Filter(products, (p: Product) => p.category == category)
  }

  /** For a category tab, each listing of that category appears as often as
      in the input and no other listing appears. */
  lemma FilterByCategoryCount(products: seq<Product>, category: string, p: Product)
    requires category != AllCategory
    ensures multiset(FilterByCategory(products, category))[p]
         == if p.category == category then multiset(products)[p] else 0
  {
    FilterCount(products, (q: Product) => q.category == category, p);
  }

  /** Selecting the same tab again shows the same listings. */
  lemma FilterByCategoryIdempotent(products: seq<Product>, category: string)
    ensures FilterByCategory(FilterByCategory(products, category), category)
         == FilterByCategory(products, category)
  {
    if category != AllCategory {
      FilterIdempotent(products, (p: Product) => p.category == category);
    }
  }

  /** The filter keeps relative order: filtering a concatenation is the
      concatenation of the filtered parts. */
  lemma FilterByCategoryAppend(a: seq<Product>, b: seq<Product>, category: string)
    ensures FilterByCategory(a + b, category) == FilterByCategory(a, category) + FilterByCategory(b, category)
  {
    if category != AllCategory {
      FilterAppend(a, b, (p: Product) => p.category == category);
    }
  }

  /** The heading above the list: the tab's name, then the number of
      listings shown. Reading the number back gives the filtered length. */
  function Heading(products: seq<Product>, category: string): (h: string)
    ensures |h| >= |category| + 6
    ensures h[..|category|] == category
    ensures var digits := h[|category| + 4..|h| - 1];
      AllDigits(digits) && DecimalValue(digits) == |FilterByCategory(products, category)|
  {
    var digits := NatToDecimal(|FilterByCategory(products, category)|);
    var h := category + " 상품 " + digits + "개";
    assert h[|category| + 4..|h| - 1] == digits;
    h
  }
}

=== FILE: likes.dfy ===
/** The set of liked listing ids kept by the item list and by My Page. */
module Likes {

  /** `toggleLike`: flips whether `id` is liked and leaves every other id as
      it was. */
  function Toggle(liked: set<int>, id: int): (r: set<int>)
    ensures id in r <==> id !in liked
    ensures forall x :: x != id ==> (x in r <==> x in liked)
  {
    if id in liked then liked - {id} else liked + {id}
  }

  /** Toggling the same id twice restores the original set. */
  lemma ToggleTwice(liked: set<int>, id: int)
    ensures Toggle(Toggle(liked, id), id) == liked
  {
  }

  /** Toggles of two ids can be applied in either order. */
  lemma ToggleCommutes(liked: set<int>, a: int, b: int)
    ensures Toggle(Toggle(liked, a), b) == Toggle(Toggle(liked, b), a)
  {
  }
}

=== FILE: list_codec.dfy ===
/** The text form in which the neighbourhood list is kept in local storage:
    the JSON array notation for a list of strings, `["역삼동","삼성동"]`,
    with quote and backslash escaped inside each string. */
module ListCodec {
  import opened Wrappers

  /** A string's characters with `"` and `\` each preceded by a backslash. */
  function Escape(s: string): string {
    if s == [] then ""
    else (if s[0] == '"' || s[0] == '\\' then ['\\', s[0]] else [s[0]]) + Escape(s[1..])
  }

  /** A string as a JSON string literal. */
  function Quote(s: string): string {
    "\"" + Escape(s) + "\""
  }

  /** The comma-separated string literals between the brackets. */
  function Items(xs: seq<string>): string {
    if |xs| == 0 then ""
    else if |xs| == 1 then Quote(xs[0])
    else Quote(xs[0]) + "," + Items(xs[1..])
  }

  /** `JSON.stringify` of a list of strings. */
  function Encode(xs: seq<string>): (t: string)
    ensures |t| >= 2 && t[0] == '[' && t[|t| - 1] == ']'
  {
    "[" + Items(xs) + "]"
  }

  /** The character a one-character JSON escape stands for: `\c` for `c` one
      of `"`, `\`, `/`, `b`, `f`, `n`, `r`, `t`. Any other character after a
      backslash is not a valid escape. */
  function Unescape(c: char): (r: Option<char>)
    ensures c == '"' || c == '\\' || c == '/' ==> r == Some(c)
    ensures c == 'b' ==> r == Some('\U{8}')
    ensures c == 'f' ==> r == Some('\U{C}')
    ensures c == 'n' ==> r == Some('\n')
    ensures c == 'r' ==> r == Some('\r')
    ensures c == 't' ==> r == Some('\t')
    ensures r.Some? <==> c in "\"\\/bfnrt"
  {
    if c == '"' || c == '\\' || c == '/' then Some(c)
    else if c == 'b' then Some('\U{8}')
    else if c == 'f' then Some('\U{C}')
    else if c == 'n' then Some('\n')
    else if c == 'r' then Some('\r')
    else if c == 't' then Some('\t')
    else None
  }

  /** Reads the body of a string literal up to its closing quote, undoing the
      escapes; yields the string and the text after the quote. A backslash
      that does not start a valid escape makes the text unreadable. */
  function ReadString(t: string): (r: Option<(string, string)>)
    ensures r.Some? ==> |r.value.1| < |t|
  {
    if t == [] then None
    else if t[0] == '"' then Some(("", t[1..]))
    else if t[0] == '\\' then
      if |t| < 2 || Unescape(t[1]).None? then None
      else match ReadString(t[2..])
        case None => None
        case Some((s, rest)) => Some(([Unescape(t[1]).value] + s, rest))
    else match ReadString(t[1..])
      case None => None
      case Some((s, rest)) => Some(([t[0]] + s, rest))
  }

  /** Reads one or more comma-separated string literals filling all of `t`. */
  function ReadItems(t: string): Option<seq<string>>
    decreases |t|
  {
    if t == [] || t[0] != '"' then None
    else match ReadString(t[1..])
      case None => None
      case Some((s, rest)) =>
        if rest == [] then Some([s])
        else if rest[0] == ',' then
          match ReadItems(rest[1..])
          case None => None
          case Some(more) => Some([s] + more)
        else None
  }

  /** `JSON.parse` restricted to lists of strings; `None` where it would throw. */
  function Decode(t: string): Option<seq<string>> {
    if |t| < 2 || t[0] != '[' || t[|t| - 1] != ']' then None
    else if |t| == 2 then Some([])
    else ReadItems(t[1..|t| - 1])
  }

  lemma {:induction false} ReadEscaped(s: string, rest: string)
    ensures ReadString(Escape(s) + "\"" + rest) == Some((s, rest))
    decreases |s|
  {
    if s == [] {
      assert Escape(s) + "\"" + rest == ['"'] + rest;
    } else {
      var head := if s[0] == '"' || s[0] == '\\' then ['\\', s[0]] else [s[0]];
      var t := Escape(s) + "\"" + rest;
      assert t == head + (Escape(s[1..]) + "\"" + rest);
      ReadEscaped(s[1..], rest);
      if s[0] == '"' || s[0] == '\\' {
        assert t[2..] == Escape(s[1..]) + "\"" + rest;
      } else {
        assert t[1..] == Escape(s[1..]) + "\"" + rest;
      }
      assert [s[0]] + s[1..] == s;
    }
  }

  lemma {:induction false} ReadItemsOfItems(xs: seq<string>)
    requires |xs| >= 1
    ensures ReadItems(Items(xs)) == Some(xs)
    decreases |xs|
  {
    var t := Items(xs);
    var after := if |xs| == 1 then "" else "," + Items(xs[1..]);
    assert t == "\"" + (Escape(xs[0]) + "\"" + after);
    assert t[1..] == Escape(xs[0]) + "\"" + after;
    ReadEscaped(xs[0], after);
    assert t != [] && t[0] == '"';
    if |xs| == 1 {
      assert [xs[0]] == xs;
    } else {
      assert after != [] && after[0] == ',';
      assert after[1..] == Items(xs[1..]);
      ReadItemsOfItems(xs[1..]);
      assert [xs[0]] + xs[1..] == xs;
    }
  }

  /** Reading back a stored list gives the list that was written. */
  lemma {:induction false} DecodeEncode(xs: seq<string>)
    ensures Decode(Encode(xs)) == Some(xs)
  {
    var t := Encode(xs);
    if |xs| == 0 {
      assert t == "[]";
    } else {
      assert t[1..|t| - 1] == Items(xs);
      ReadItemsOfItems(xs);
      assert |Items(xs)| > 0 by {
        assert Items(xs)[0] == '"';
      }
    }
  }

  /** A valid escape inside a string literal stands for the one character
      it denotes, whatever follows it. */
  lemma {:induction false} EscapeReadsAsOneChar(c: char, t: string, s: string, rest: string)
    requires Unescape(c).Some?
    requires ReadString(t) == Some((s, rest))
    ensures ReadString(['\\', c] + t) == Some(([Unescape(c).value] + s, rest))
  {
    assert (['\\', c] + t)[1] == c && (['\\', c] + t)[2..] == t;
  }

  /** A backslash followed by a character that starts no JSON escape makes
      the string literal, and so the saved list, unreadable. (`\u` starts a
      JSON escape, so it is excluded here although the reader refuses it
      too.) */
  lemma UnknownEscapeUnreadable(c: char, t: string)
    requires c !in "\"\\/bfnrtu"
    ensures ReadString(['\\', c] + t) == None
    ensures Decode("[\"" + ['\\', c] + t) == None
  {
    assert (['\\', c] + t)[1] == c;
    var d := "[\"" + ['\\', c] + t;
    if |d| >= 2 && d[|d| - 1] == ']' && |d| > 2 {
      var inner := d[1..|d| - 1];
      assert inner[0] == '"';
      if |t| == 0 {
        assert inner[1..] == ['\\'];
      } else {
        var u := t[..|t| - 1];
        assert inner[1..] == ['\\', c] + u;
        assert (['\\', c] + u)[1] == c;
      }
    }
  }

  /** Example: a saved list with a `\n` escape reads as a list holding a
      newline, and one with the unknown escape `\q` is unparsable. */
  lemma EscapesReadAsJson()
    ensures Decode("[\"a\\nb\"]") == Some(["a\nb"])
    ensures Decode("[\"\\q\"]") == None
  {
    var t := "\"a\\nb\"";
    assert t[1..] == "a\\nb\"" && "a\\nb\""[1..] == "\\nb\"" && "\\nb\""[2..] == "b\"";
    assert "b\""[1..] == "\"";
    assert ReadString("\"") == Some(("", ""));
    assert ['b'] + "" == "b" && ['\n'] + "b" == "\nb" && ['a'] + "\nb" == "a\nb";
    assert ReadString("b\"") == Some(("b", ""));
    assert ReadString("\\nb\"") == Some(("\nb", ""));
    assert ReadString("a\\nb\"") == Some(("a\nb", ""));
    assert "[\"a\\nb\"]"[1..7] == t;
    assert "[\"\\q\"]"[1..5] == "\"\\q\"";
  }
}

=== FILE: listing.dfy ===
/** The home page: turning backend rows into displayed listings, the
    relative-time label, the create and edit forms and the records they send
    to the backend. */
module Listing {
  import opened Wrappers
  import opened Text
  import opened Catalog
  import opened ItemList

  /** A row of the backend's `items` table. Nullable columns are options;
      `elapsed` is the whole number of seconds between `created_at` and now,
      `None` when `created_at` does not parse as a date. */
  datatype Row = Row(
    id: int, userId: Option<string>, title: string, price: int,
    location: Option<string>, elapsed: Option<int>, imageUrl: Option<string>,
    status: Option<string>, likes: Option<int>, chatCount: Option<int>,
    category: Option<string>, description: Option<string>)

  const NoLocation := "위치 미정"
  const DefaultImage := "https://images.unsplash.com/photo-1581235720704-06d3acfcb36f?w=400"
  const OtherCategory := "기타"
  const DefaultFormCategory := "디지털기기"

  // ---------------------------------------------------------------- time label

  /** The unit `getTimeAgo` reports an age in. */
  datatype Age = JustNow | MinutesAgo(n: nat) | HoursAgo(n: nat) | DaysAgo(n: nat)

  /** The age of a listing in whole elapsed units: under a minute (negative
      ages included) is "just now"; otherwise the count of whole minutes below
      an hour, whole hours below a day, or whole days. */
  function Bucket(elapsed: int): (a: Age)
    ensures a.JustNow? <==> elapsed < 60
    ensures a.MinutesAgo? <==> 60 <= elapsed < 3600
    ensures a.HoursAgo? <==> 3600 <= elapsed < 86400
    ensures a.DaysAgo? <==> 86400 <= elapsed
    ensures a.MinutesAgo? ==> 1 <= a.n <= 59 && a.n * 60 <= elapsed < (a.n + 1) * 60
    ensures a.HoursAgo? ==> 1 <= a.n <= 23 && a.n * 3600 <= elapsed < (a.n + 1) * 3600
    ensures a.DaysAgo? ==> 1 <= a.n && a.n * 86400 <= elapsed < (a.n + 1) * 86400
  {
    if elapsed < 60 then JustNow
    else if elapsed < 3600 then MinutesAgo(elapsed / 60)
    else if elapsed < 86400 then HoursAgo(elapsed / 3600)
    else DaysAgo(elapsed / 86400)
  }

  const JustNowText := "방금 전"
  const MinutesSuffix := "분 전"
  const HoursSuffix := "시간 전"
  const DaysSuffix := "일 전"

  /** The Korean text of an age: "방금 전", "N분 전", "N시간 전" or "N일 전". */
  function AgeText(a: Age): string {
    match a
    case JustNow => JustNowText
    case MinutesAgo(n) => NatToDecimal(n) + MinutesSuffix
    case HoursAgo(n) => NatToDecimal(n) + HoursSuffix
    case DaysAgo(n) => NatToDecimal(n) + DaysSuffix
  }

  /** `getTimeAgo`. An unparsable date makes every comparison with NaN false,
      so the source falls through to the day branch and prints "NaN일 전". */
  function TimeAgo(elapsed: Option<int>): (text: string)
    ensures elapsed.None? ==> text == "NaN" + DaysSuffix
    ensures elapsed.Some? && elapsed.value < 60 ==> text == JustNowText
    ensures elapsed.Some? && 60 <= elapsed.value < 3600 ==>
      exists n: nat :: 1 <= n <= 59 && n * 60 <= elapsed.value < (n + 1) * 60
        && text == NatToDecimal(n) + MinutesSuffix
    ensures elapsed.Some? && 3600 <= elapsed.value < 86400 ==>
      exists n: nat :: 1 <= n <= 23 && n * 3600 <= elapsed.value < (n + 1) * 3600
        && text == NatToDecimal(n) + HoursSuffix
    ensures elapsed.Some? && 86400 <= elapsed.value ==>
      exists n: nat :: 1 <= n && n * 86400 <= elapsed.value < (n + 1) * 86400
        && text == NatToDecimal(n) + DaysSuffix
  {
    match elapsed
    case None => "NaN" + DaysSuffix
    case Some(e) =>
      var a := Bucket(e);
      assert a.MinutesAgo? ==> AgeText(a) == NatToDecimal(a.n) + MinutesSuffix;
      assert a.HoursAgo? ==> AgeText(a) == NatToDecimal(a.n) + HoursSuffix;
      assert a.DaysAgo? ==> AgeText(a) == NatToDecimal(a.n) + DaysSuffix;
      AgeText(a)
  }

  lemma DigitsPrefix(d: string, suffix: string, e: string)
    requires AllDigits(d) && |d| >= 1 && e == d + suffix
    ensures |e| > |suffix| && e[..|d|] == d && e[|d|..] == suffix
  {
  }

  /** Two ages with the same text are the same age: the text names the unit
      and its digits read back as the count. */
  lemma AgeTextInjective(a: Age, b: Age)
    requires AgeText(a) == AgeText(b)
    ensures a == b
  {
    var t := AgeText(a);
    UnitMark(a);
    UnitMark(b);
    assert UnitChar(a) == UnitChar(b);
    if !a.JustNow? {
      var suffix := match a case MinutesAgo(_) => MinutesSuffix case HoursAgo(_) => HoursSuffix case _ => DaysSuffix;
      var da := NatToDecimal(a.n);
      var db := NatToDecimal(b.n);
      DigitsPrefix(da, suffix, t);
      DigitsPrefix(db, suffix, t);
      assert da == t[..|t| - |suffix|] == db;
    }
  }

  function UnitChar(a: Age): char {
    match a
    case JustNow => '금'
    case MinutesAgo(_) => '분'
    case HoursAgo(_) => '간'
    case DaysAgo(_) => '일'
  }

  /** The character three places from the end tells the units apart:
      방금 전 has 금, N분 전 has 분, N시간 전 has 간 and N일 전 has 일. */
  lemma UnitMark(a: Age)
    ensures |AgeText(a)| >= 3
    ensures AgeText(a)[|AgeText(a)| - 3] == UnitChar(a)
  {
  }

  // ------------------------------------------------------------------- rows

  /** A backend row as a displayed listing. Id, owner, title, price and
      description are copied; a missing location, image, status or category
      gets its default and missing counters read as 0. */
  function FromRow(row: Row): (p: Product)
    ensures p.id == row.id && p.userId == row.userId && p.title == row.title
    ensures p.price == row.price && p.description == row.description
    ensures p.location != "" && (Truthy(row.location) ==> p.location == row.location.value)
    ensures !Truthy(row.location) ==> p.location == NoLocation
    ensures Truthy(row.imageUrl) ==> p.image == row.imageUrl.value
    ensures !Truthy(row.imageUrl) ==> p.image == DefaultImage
    ensures Truthy(row.status) ==> p.status == row.status.value
    ensures !Truthy(row.status) ==> p.status == "selling"
    ensures p.likes == row.likes.GetOr(0) && p.chatCount == row.chatCount.GetOr(0)
    ensures Truthy(row.category) ==> p.category == row.category.value
    ensures !Truthy(row.category) ==> p.category == OtherCategory
    ensures p.time == TimeAgo(row.elapsed)
  {
    Product(
      row.id, row.userId, row.title, row.price,
      Or(row.location.GetOr(""), NoLocation),
      TimeAgo(row.elapsed),
      Or(row.imageUrl.GetOr(""), DefaultImage),
      Or(row.status.GetOr(""), "selling"),
      row.likes.GetOr(0),
      row.chatCount.GetOr(0),
      Or(row.category.GetOr(""), OtherCategory),
      row.description)
  }

  /** How the `items` query ended: an error, or data that may be null. */
  datatype FetchOutcome = FetchFailed | Fetched(data: Option<seq<Row>>)

  /** The rows a fetch delivered, empty for an error or null data. */
  function DeliveredRows(outcome: FetchOutcome): seq<Row> {
    if outcome.Fetched? && outcome.data.Some? then outcome.data.value else []
  }

  /** `fetchProducts`: the fetched rows, converted and in the backend's order,
      followed by all the samples; an error or an empty result shows the
      samples alone. */
  function LoadProducts(outcome: FetchOutcome): (products: seq<Product>)
    ensures var rows := DeliveredRows(outcome);
      && |products| == |rows| + |Samples|
      && (forall i :: 0 <= i < |rows| ==> products[i] == FromRow(rows[i]))
      && products[|rows|..] == Samples
  {
    var rows := DeliveredRows(outcome);
    if |rows| > 0 then seq(|rows|, i requires 0 <= i < |rows| => FromRow(rows[i])) + Samples
    else Samples
  }

  /** A fetched row without a category is listed as "기타", which is no tab:
      it shows under "전체" and under no other category tab. */
  lemma UncategorisedOnlyUnderAll(outcome: FetchOutcome, i: nat, category: string)
    requires i < |DeliveredRows(outcome)|
    requires !Truthy(DeliveredRows(outcome)[i].category)
    requires category in Categories
    ensures var p := FromRow(DeliveredRows(outcome)[i]);
      && p in FilterByCategory(LoadProducts(outcome), AllCategory)
      && (category != AllCategory ==> p !in FilterByCategory(LoadProducts(outcome), category))
  {
    var products := LoadProducts(outcome);
    assert products[i] == FromRow(DeliveredRows(outcome)[i]);
    assert OtherCategory !in Categories;
  }

  /** Under any tab the fetched listings come before the samples, each
      group in its own order. */
  lemma FetchedBeforeSamples(outcome: FetchOutcome, category: string)
    ensures var rows := DeliveredRows(outcome);
      FilterByCategory(LoadProducts(outcome), category)
      == FilterByCategory(LoadProducts(outcome)[..|rows|], category) + FilterByCategory(Samples, category)
  {
    var products := LoadProducts(outcome);
    var n := |DeliveredRows(outcome)|;
    assert products == products[..n] + Samples;
    FilterByCategoryAppend(products[..n], Samples, category);
  }

  // ------------------------------------------------------------------ forms

  /** The create and edit forms: every field is the input's text. */
  datatype Form = Form(title: string, description: string, price: string,
                       category: string, imageUrl: string, location: string)

  /** The blank form both modals start from and are reset to. */
  const EmptyForm := Form("", "", "", DefaultFormCategory, "", "")

  /** The edit modal: whether it is open, the listing being edited, its form
      and the error message shown. */
  datatype EditModal = EditModal(open: bool, editing: Option<Product>, form: Form, error: Option<string>)

  const ClosedEditModal := EditModal(false, None, EmptyForm, None)

  /** `handleEditClick`: the form is prefilled from the listing, a missing
      description as "", the price as its decimal text. */
  function OpenEdit(p: Product): (m: EditModal)
    ensures m.open && m.editing == Some(p) && m.error.None?
    ensures m.form.title == p.title && m.form.category == p.category
    ensures m.form.imageUrl == p.image && m.form.location == p.location
    ensures p.description.Some? ==> m.form.description == p.description.value
    ensures p.description.None? ==> m.form.description == ""
    ensures m.form.price != [] && AllDigits(if m.form.price[0] == '-' then m.form.price[1..] else m.form.price)
    ensures NoLeadingZero(if m.form.price[0] == '-' then m.form.price[1..] else m.form.price)
    ensures SignedDecimalValue(m.form.price) == p.price
  {
    EditModal(true, Some(p), Form(p.title, p.description.GetOr(""), IntToDecimal(p.price), p.category, p.image, p.location), None)
  }

  /** `handleCloseEditModal`: closed, nothing being edited, blank form with
      the default category, no error. Whatever listing was opened, closing
      leaves no trace of it. */
  function CloseEdit(m: EditModal): (r: EditModal)
    ensures !r.open && r.editing.None? && r.error.None? && r.form == EmptyForm
    ensures r.form.title == "" && r.form.description == "" && r.form.price == ""
    ensures r.form.imageUrl == "" && r.form.location == "" && r.form.category == DefaultFormCategory
  {
    ClosedEditModal
  }

  /** The create modal: open or not, its form and its error message. */
  datatype CreateModal = CreateModal(open: bool, form: Form, error: Option<string>)

  /** `handleCloseModal`: closed, blank form, no error, however the form
      was filled. */
  function CloseCreate(m: CreateModal): (r: CreateModal)
    ensures !r.open && r.error.None? && r.form == EmptyForm
    ensures r.form.title == "" && r.form.description == "" && r.form.price == ""
    ensures r.form.imageUrl == "" && r.form.location == "" && r.form.category == DefaultFormCategory
  {
    CreateModal(false, EmptyForm, None)
  }

  /** What the floating write button did: sent the visitor to sign in, or
      showed the create modal. */
  datatype WriteClickOutcome = SignInFirst(modal: CreateModal) | Shown(modal: CreateModal)

  /** `handleWriteClick`: a visitor who is not signed in is sent to sign in
      and the modal stays as it was; otherwise the modal opens on the form
      as it was left, with no error. */
  function WriteClick(authenticated: bool, m: CreateModal): (r: WriteClickOutcome)
    ensures !authenticated <==> r.SignInFirst?
    ensures r.SignInFirst? ==> r.modal == m
    ensures r.Shown? ==> r.modal.open && r.modal.form == m.form && r.modal.error.None?
  {
    if !authenticated then SignInFirst(m) else Shown(m.(open := true, error := None))
  }

  // ---------------------------------------------------------------- submits

  /** A number as sent to the backend; `parseInt` can yield NaN. */
  datatype Num = Finite(value: real) | NaN

  /** A row inserted into `items`. */
  datatype ItemInsert = ItemInsert(
    userId: string, title: string, description: string, price: Num,
    category: string, imageUrl: string, location: string, status: string)

  /** Why a submit on the home page did not reach the backend. A missing user
      or listing is the TypeError of reading `.id` from null. */
  datatype SubmitError = InvalidPrice | MissingUser | MissingListing

  /** The price rule of both home-page forms, on the value `parseFloat` gave
      (`None` for NaN): NaN and negative prices are refused, zero is not. */
  function CheckPrice(parsed: Option<real>): (r: Result<real, SubmitError>)
    ensures r.Err? <==> parsed.None? || parsed.value < 0.0
    ensures r.Err? ==> r.error == InvalidPrice
    ensures r.Ok? ==> r.value == parsed.value && r.value >= 0.0
  {
    match parsed
    case None => Err(InvalidPrice)
    case Some(v) => if v < 0.0 then Err(InvalidPrice) else Ok(v)
  }

  /** `handleSubmit` on the home page, given the user's id and `parseFloat`
      of the price text. The price is checked first; an accepted insert is
      for sale, carries the parsed price, and gets the default image and
      location when those fields are empty. */
  function CreateItem(user: Option<string>, form: Form, parsed: Option<real>): (r: Result<ItemInsert, SubmitError>)
    ensures CheckPrice(parsed).Err? ==> r == Err(InvalidPrice)
    ensures CheckPrice(parsed).Ok? && user.None? ==> r == Err(MissingUser)
    ensures r.Ok? <==> CheckPrice(parsed).Ok? && user.Some?
    ensures r.Ok? ==>
      && r.value.status == "selling"
      && r.value.userId == user.value
      && r.value.price == Finite(parsed.value)
      && r.value.title == form.title && r.value.description == form.description
      && r.value.category == form.category
      && r.value.imageUrl == (if form.imageUrl == "" then DefaultImage else form.imageUrl)
      && r.value.location == (if form.location == "" then NoLocation else form.location)
  {
    match CheckPrice(parsed)
    case Err(e) => Err(e)
    case Ok(price) =>
      match user
      case None => Err(MissingUser)
      case Some(uid) =>
        Ok(ItemInsert(uid, form.title, form.description, Finite(price), form.category,
                      if form.imageUrl == "" then DefaultImage else form.imageUrl,
                      if form.location == "" then NoLocation else form.location,
                      "selling"))
  }

  /** An update request: the new field values, and the listing id and owner
      id a row must both match to be changed. */
  datatype ItemUpdate = ItemUpdate(
    title: string, description: string, price: real, category: string,
    imageUrl: string, location: string, matchId: int, matchUserId: string)

  /** The rows an update request changes. */
  predicate Targets(u: ItemUpdate, row: Row) {
    row.id == u.matchId && row.userId == Some(u.matchUserId)
  }

  /** `handleEditSubmit`, given the current user, the listing being edited
      and `parseFloat` of the price text. The price rule is the create rule;
      the fields are sent as typed, with no defaults, and the request only
      touches the edited listing's row if the current user owns it. */
  function EditItem(user: Option<string>, editing: Option<Product>, form: Form, parsed: Option<real>)
    : (r: Result<ItemUpdate, SubmitError>)
    ensures CheckPrice(parsed).Err? ==> r == Err(InvalidPrice)
    ensures CheckPrice(parsed).Ok? && editing.None? ==> r == Err(MissingListing)
    ensures CheckPrice(parsed).Ok? && editing.Some? && user.None? ==> r == Err(MissingUser)
    ensures r.Ok? <==> CheckPrice(parsed).Ok? && editing.Some? && user.Some?
    ensures r.Ok? ==>
      && r.value.price == parsed.value
      && r.value.title == form.title && r.value.description == form.description
      && r.value.category == form.category && r.value.imageUrl == form.imageUrl
      && r.value.location == form.location
      && (forall row: Row :: Targets(r.value, row) <==> row.id == editing.value.id && row.userId == user)
  {
    match CheckPrice(parsed)
    case Err(e) => Err(e)
    case Ok(price) =>
      match editing
      case None => Err(MissingListing)
      case Some(p) =>
        match user
        case None => Err(MissingUser)
        case Some(uid) =>
          Ok(ItemUpdate(form.title, form.description, price, form.category,
                        form.imageUrl, form.location, p.id, uid))
  }

  /** The two home-page forms accept a zero price. */
  lemma ZeroPriceAccepted(user: string, editing: Product, form: Form)
    ensures CreateItem(Some(user), form, Some(0.0)).Ok?
    ensures EditItem(Some(user), Some(editing), form, Some(0.0)).Ok?
  {
  }
}

=== FILE: location.dfy ===
/** The header's neighbourhood selection: the selected dong, the list of
    dongs offered, and the two local-storage keys that persist them across
    sessions. Each handler is a function from the old state to the new one. */
module Location {
  import opened Wrappers
  import ListCodec
  import opened Neighbourhoods
  import opened Geocoding

  /** Browser local storage: string keys to string values. */
  type Storage = map<string, string>

  const SelectedDongKey := "selectedDong"
  const DongListKey := "dongList"

  /** The list offered when none has been saved. */
  const DefaultDongList: seq<string> :=
    ["역삼동", "삼성동", "대치동", "청담동", "압구정동", "신사동", "논현동", "개포동"]

  datatype LocationState = LocationState(selectedDong: string, dongList: seq<string>, storage: Storage)

  /** The component's state before the mount-time load runs. */
  function Initial(storage: Storage): (s: LocationState)
    ensures s.selectedDong == PlaceholderDong && s.dongList == [] && s.storage == storage
  {
    LocationState(PlaceholderDong, [], storage)
  }

  /** `localStorage.getItem`: the stored value, or `None` for `null`. */
  function GetItem(storage: Storage, key: string): (r: Option<string>)
    ensures r.Some? <==> key in storage
    ensures r.Some? ==> r.value == storage[key]
  {
    if key in storage then Some(storage[key]) else None
  }

  /** A saved value counts only when it is present and non-empty, as `if (saved)` does. */
  predicate IsSaved(storage: Storage, key: string) {
    Truthy(GetItem(storage, key))
  }

  /** A saved list that `JSON.parse` rejects makes the mount effect throw. */
  datatype LoadError = CorruptDongList

  /** The mount-time load. A saved dong replaces the placeholder; a saved list
      is used as it was stored; with no saved list the fixed eight-dong
      default is offered. Storage itself is only read. */
  function Load(storage: Storage): (r: Result<LocationState, LoadError>)
    ensures r.Err? <==> IsSaved(storage, DongListKey) && ListCodec.Decode(storage[DongListKey]).None?
    ensures r.Ok? ==> r.value.storage == storage
    ensures r.Ok? && IsSaved(storage, SelectedDongKey) ==> r.value.selectedDong == storage[SelectedDongKey]
    ensures r.Ok? && !IsSaved(storage, SelectedDongKey) ==> r.value.selectedDong == PlaceholderDong
    ensures r.Ok? && IsSaved(storage, DongListKey) ==>
      ListCodec.Decode(storage[DongListKey]) == Some(r.value.dongList)
    ensures r.Ok? && !IsSaved(storage, DongListKey) ==> r.value.dongList == DefaultDongList
  {
    var dong := if IsSaved(storage, SelectedDongKey) then storage[SelectedDongKey] else PlaceholderDong;
    if IsSaved(storage, DongListKey) then
      match ListCodec.Decode(storage[DongListKey])
      case Some(list) => Ok(LocationState(dong, list, storage))
      case None => Err(CorruptDongList)
    else Ok(LocationState(dong, DefaultDongList, storage))
  }

  /** On a first visit, with nothing saved, the load keeps the initial
      placeholder selection and offers the default list. */
  lemma FirstVisitLoad()
    ensures Load(map[]) == Ok(Initial(map[]).(dongList := DefaultDongList))
  {
  }

  /** The outcome of the browser's one-shot position request. */
  datatype Geolocation = Unsupported | PositionFailed | Position(latitude: real, longitude: real)

  /** The message shown to the user, if any. */
  datatype Alert = NoAlert | UnsupportedBrowser | LocationUnavailable

  datatype Resolution = Resolution(state: LocationState, alert: Alert)

  /** Storage after `key` is set to `value`; every other key keeps its value. */
  function Store(storage: Storage, key: string, value: string): (t: Storage)
    ensures t.Keys == storage.Keys + {key}
    ensures t[key] == value
    ensures forall k :: k in storage && k != key ==> t[k] == storage[k]
  {
    storage[key := value]
  }

  /** `getCurrentLocation`. Without geolocation, or when the position request
      fails, nothing changes and the user is alerted. Otherwise the resolved
      dong becomes the selection, its nearby list becomes the offered list,
      and both are written to storage; no other key is touched. */
  function ResolveCurrentLocation(s: LocationState, geo: Geolocation,
                                  kakao: KakaoOutcome, nominatim: NominatimOutcome): (r: Resolution)
    ensures geo.Unsupported? ==> r == Resolution(s, UnsupportedBrowser)
    ensures geo.PositionFailed? ==> r == Resolution(s, LocationUnavailable)
    ensures geo.Position? ==>
      var dong := ReverseGeocode(kakao, nominatim).dong;
      && r.alert == NoAlert
      && r.state.selectedDong == dong
      && r.state.dongList == NearbyDongs(dong)
      && dong in r.state.dongList && 1 <= |r.state.dongList| <= 5
      && r.state.storage.Keys == s.storage.Keys + {SelectedDongKey, DongListKey}
      && r.state.storage[SelectedDongKey] == dong
      && ListCodec.Decode(r.state.storage[DongListKey]) == Some(r.state.dongList)
      && (forall k :: k in s.storage && k != SelectedDongKey && k != DongListKey ==>
            r.state.storage[k] == s.storage[k])
  {
    match geo
    case Unsupported => Resolution(s, UnsupportedBrowser)
    case PositionFailed => Resolution(s, LocationUnavailable)
    case Position(_, _) =>
      var dong := ReverseGeocode(kakao, nominatim).dong;
      var nearby := NearbyDongs(dong);
      ListCodec.DecodeEncode(nearby);
      var storage := Store(Store(s.storage, SelectedDongKey, dong), DongListKey, ListCodec.Encode(nearby));
      Resolution(LocationState(dong, nearby, storage), NoAlert)
  }

  /** `handleDongSelect`: the picked dong becomes the selection and is saved;
      the offered list and every other storage key are untouched, so a pick
      from the list keeps the selection inside the list. */
  function SelectDong(s: LocationState, dong: string): (t: LocationState)
    ensures t.selectedDong == dong
    ensures t.dongList == s.dongList
    ensures t.storage.Keys == s.storage.Keys + {SelectedDongKey}
    ensures t.storage[SelectedDongKey] == dong
    ensures forall k :: k in s.storage && k != SelectedDongKey ==> t.storage[k] == s.storage[k]
    ensures dong in s.dongList ==> t.selectedDong in t.dongList
  {
    LocationState(dong, s.dongList, Store(s.storage, SelectedDongKey, dong))
  }

  /** Reloading after a successful resolution shows the same list and the
      same dong, unless the dong came back empty (possible only from the
      Kakao provider), which the load reads as "nothing saved". */
  lemma ReloadAfterResolve(s: LocationState, lat: real, lng: real,
                           kakao: KakaoOutcome, nominatim: NominatimOutcome)
    ensures var t := ResolveCurrentLocation(s, Position(lat, lng), kakao, nominatim).state;
      Load(t.storage) == Ok(LocationState(
        if t.selectedDong == "" then PlaceholderDong else t.selectedDong, t.dongList, t.storage))
  {
    var t := ResolveCurrentLocation(s, Position(lat, lng), kakao, nominatim).state;
    assert IsSaved(t.storage, DongListKey) by {
      assert |t.storage[DongListKey]| >= 2 by {
        ListCodec.DecodeEncode(t.dongList);
        assert t.storage[DongListKey] == ListCodec.Encode(t.dongList);
      }
    }
  }

  /** A failed position request followed by a reload gives the same state as
      a reload without it. */
  lemma FailureThenReload(s: LocationState, geo: Geolocation, kakao: KakaoOutcome, nominatim: NominatimOutcome)
    requires !geo.Position?
    ensures Load(ResolveCurrentLocation(s, geo, kakao, nominatim).state.storage) == Load(s.storage)
  {
  }

  /** Reloading after a manual pick of a non-empty dong shows that dong, with
      the list that was saved before. */
  lemma ReloadAfterSelect(s: LocationState, dong: string)
    requires dong != ""
    requires Load(s.storage).Ok?
    ensures Load(SelectDong(s, dong).storage) == Ok(LocationState(dong, Load(s.storage).value.dongList, SelectDong(s, dong).storage))
  {
  }
}

=== FILE: my_page.dfy ===
/** My Page: the sign-in check, the profile shown and saved, the liked set,
    and the two product tabs, which both read the sample listings. */
module MyPage {
  import opened Wrappers
  import opened Catalog
  import opened Seqs
  import Likes

  /** The profile as the page holds it; missing values are "". */
  datatype Profile = Profile(nickname: string, avatarUrl: string)

  const BlankProfile := Profile("", "")

  /** A `profiles` row; both columns are nullable. */
  datatype ProfileRow = ProfileRow(nickname: Option<string>, avatarUrl: Option<string>)

  /** How `checkUser` ended: sent to sign in (an auth error or no user), or
      signed in with the user's id and profile. */
  datatype Session = RedirectToSignIn | SignedIn(userId: string, profile: Profile)

  /** `checkUser`, given the auth answer (`None` for an error or no user)
      and the profile row if one was found. A found row replaces the blank
      profile, with missing columns read as ""; no row keeps it blank. */
  function CheckUser(user: Option<string>, row: Option<ProfileRow>): (s: Session)
    ensures user.None? <==> s.RedirectToSignIn?
    ensures s.SignedIn? ==> s.userId == user.value
    ensures s.SignedIn? && row.None? ==> s.profile == BlankProfile
    ensures s.SignedIn? && row.Some? ==>
      && (row.value.nickname.Some? ==> s.profile.nickname == row.value.nickname.value)
      && (row.value.nickname.None? ==> s.profile.nickname == "")
      && (row.value.avatarUrl.Some? ==> s.profile.avatarUrl == row.value.avatarUrl.value)
      && (row.value.avatarUrl.None? ==> s.profile.avatarUrl == "")
  {
    match user
    case None => RedirectToSignIn
    case Some(id) =>
      match row
      case None => SignedIn(id, BlankProfile)
      case Some(r) => SignedIn(id, Profile(r.nickname.GetOr(""), r.avatarUrl.GetOr("")))
  }

  const DefaultName := "사용자"

  /** The name in the profile header: the nickname, or "사용자" when there
      is none. */
  function DisplayName(p: Profile): (name: string)
    ensures name != ""
    ensures p.nickname != "" ==> name == p.nickname
    ensures p.nickname == "" ==> name == DefaultName
  {
    if p.nickname != "" then p.nickname else DefaultName
  }

  /** A user without a profile row is greeted by the default name. */
  lemma NoRowGivesDefaultName(user: string)
    ensures CheckUser(Some(user), None).SignedIn?
    ensures DisplayName(CheckUser(Some(user), None).profile) == DefaultName
  {
  }

  /** The record `handleUpdateProfile` upserts, given the save time. */
  datatype ProfileUpsert = ProfileUpsert(id: string, nickname: string, avatarUrl: string, updatedAt: string)

  /** `handleUpdateProfile`: the user's own row, with the profile as edited. */
  function UpdateProfile(userId: string, p: Profile, now: string): (u: ProfileUpsert)
    ensures u.id == userId && u.updatedAt == now
    ensures u.nickname == p.nickname && u.avatarUrl == p.avatarUrl
  {
    ProfileUpsert(userId, p.nickname, p.avatarUrl, now)
  }

  /** Saving a profile and loading it back gives the same profile. */
  lemma SaveThenLoad(userId: string, p: Profile, now: string)
    ensures var u := UpdateProfile(userId, p, now);
      CheckUser(Some(userId), Some(ProfileRow(Some(u.nickname), Some(u.avatarUrl)))) == SignedIn(userId, p)
  {
  }

  function IsOwnSample(p: Product): bool {
    p.id <= 3
  }

  /** The "my listings" tab: the samples numbered 3 or lower, in sample
      order. */
  function MyProducts(): (r: seq<Product>)
    ensures forall p :: p in r <==> p in Samples && p.id <= 3
  {
    Filter(Samples, IsOwnSample)
  }

  /** The "my listings" tab shows exactly the first three samples. */
  lemma {:induction false} MyProductsAreFirstThree()
    ensures MyProducts() == Samples[..3]
  {
    SampleIds();
    assert Samples == Samples[..3] + Samples[3..];
    FilterAppend(Samples[..3], Samples[3..], IsOwnSample);
    FilterKeepsAll(Samples[..3], IsOwnSample);
    assert Filter(Samples[3..], IsOwnSample) == [];
    assert Samples[..3] + [] == Samples[..3];
  }

  /** The "liked" tab: the samples whose id is liked, in sample order. */
  function LikedProducts(liked: set<int>): (r: seq<Product>)
    ensures forall p :: p in r <==> p in Samples && p.id in liked
    ensures |r| <= |Samples|
  {
    Filter(Samples, (p: Product) => p.id in liked)
  }

  /** An element of a sequence whose ids are distinct occurs in it once. */
  lemma {:induction false} OnceWhenIdsDistinct(xs: seq<Product>, i: nat)
    requires i < |xs|
    requires forall j, k :: 0 <= j < k < |xs| ==> xs[j].id != xs[k].id
    ensures multiset(xs)[xs[i]] == 1
  {
    if i == 0 {
      assert xs == [xs[0]] + xs[1..];
      assert forall k :: 0 <= k < |xs[1..]| ==> xs[1..][k].id != xs[0].id;
      assert xs[0] !in xs[1..];
    } else {
      OnceWhenIdsDistinct(xs[1..], i - 1);
      assert xs == [xs[0]] + xs[1..];
      assert xs[0] != xs[i] by {
        assert xs[0].id != xs[i].id;
      }
    }
  }

  /** Each liked sample is listed once, since sample ids are distinct. */
  lemma LikedListedOnce(liked: set<int>, i: nat)
    requires i < |Samples|
    ensures multiset(LikedProducts(liked))[Samples[i]] == if Samples[i].id in liked then 1 else 0
  {
    FilterCount(Samples, (p: Product) => p.id in liked, Samples[i]);
    SampleIds();
    OnceWhenIdsDistinct(Samples, i);
  }

  /** Toggling a sample's heart moves it into or out of the liked tab and
      leaves every other sample where it was. */
  lemma ToggleMovesOneSample(liked: set<int>, id: int, p: Product)
    requires p in Samples
    ensures p in LikedProducts(Likes.Toggle(liked, id)) <==>
      (if p.id == id then p !in LikedProducts(liked) else p in LikedProducts(liked))
  {
  }
}

=== FILE: neighbourhoods.dfy ===
/** The static table of nearby neighbourhoods ("dong") used when a location
    is resolved, and its lookup. */
module Neighbourhoods {
  import opened Wrappers

  /** Each known dong with itself and four nearby dongs, in the order the
      table lists them: eight in Gangnam-gu, Seoul, then twelve in Hanam-si. */
  const Entries: seq<(string, seq<string>)> := [
    ("역삼동", ["역삼동", "삼성동", "대치동", "청담동", "개포동"]),
    ("삼성동", ["삼성동", "역삼동", "대치동", "청담동", "신사동"]),
    ("대치동", ["대치동", "역삼동", "삼성동", "개포동", "도곡동"]),
    ("청담동", ["청담동", "삼성동", "신사동", "압구정동", "역삼동"]),
    ("압구정동", ["압구정동", "청담동", "신사동", "논현동", "삼성동"]),
    ("신사동", ["신사동", "압구정동", "논현동", "청담동", "삼성동"]),
    ("논현동", ["논현동", "신사동", "압구정동", "역삼동", "서초동"]),
    ("개포동", ["개포동", "대치동", "역삼동", "일원동", "수서동"]),
    ("신장동", ["신장동", "덕풍동", "풍산동", "창우동", "하산곡동"]),
    ("덕풍동", ["덕풍동", "신장동", "풍산동", "춘궁동", "상산곡동"]),
    ("풍산동", ["풍산동", "신장동", "덕풍동", "창우동", "교산동"]),
    ("창우동", ["창우동", "풍산동", "신장동", "하산곡동", "춘궁동"]),
    ("춘궁동", ["춘궁동", "덕풍동", "창우동", "상산곡동", "망월동"]),
    ("하산곡동", ["하산곡동", "신장동", "창우동", "상산곡동", "초이동"]),
    ("상산곡동", ["상산곡동", "하산곡동", "덕풍동", "춘궁동", "초이동"]),
    ("교산동", ["교산동", "풍산동", "창우동", "미사동", "배알미동"]),
    ("미사동", ["미사동", "교산동", "망월동", "풍산동", "배알미동"]),
    ("망월동", ["망월동", "미사동", "춘궁동", "초이동", "배알미동"]),
    ("초이동", ["초이동", "하산곡동", "상산곡동", "망월동", "배알미동"]),
    ("배알미동", ["배알미동", "교산동", "미사동", "망월동", "초이동"])
  ]

  predicate Distinct(xs: seq<string>) {
    forall i, j :: 0 <= i < j < |xs| ==> xs[i] != xs[j]
  }

  /** A well-formed entry: five distinct names, the key itself first. */
  predicate GoodEntry(key: string, names: seq<string>) {
    |names| == 5 && names[0] == key && Distinct(names)
  }

  /** Every entry of the table is well formed. */
  lemma EntriesGood()
    ensures |Entries| == 20
    ensures forall i :: 0 <= i < |Entries| ==> GoodEntry(Entries[i].0, Entries[i].1)
  {
  }

  /** The keys of the table in their listed order. */
  function Keys(): (ks: seq<string>)
    ensures |ks| == |Entries|
    ensures forall i :: 0 <= i < |ks| ==> ks[i] == Entries[i].0
  {
    seq(|Entries|, i requires 0 <= i < |Entries| => Entries[i].0)
  }

  /** The position of a key in the table, told apart by its first two
      characters; -1 for names that are not keys. */
  function KeyRank(s: string): int {
    if |s| < 2 then -1
    else match s[0]
      case '역' => 0
      case '삼' => 1
      case '대' => 2
      case '청' => 3
      case '압' => 4
      case '신' => if s[1] == '사' then 5 else 8
      case '논' => 6
      case '개' => 7
      case '덕' => 9
      case '풍' => 10
      case '창' => 11
      case '춘' => 12
      case '하' => 13
      case '상' => 14
      case '교' => 15
      case '미' => 16
      case '망' => 17
      case '초' => 18
      case '배' => 19
      case _ => -1
  }

  /** No dong is listed twice as a key, as an object literal's keys are. */
  lemma KeysDistinct()
    ensures Distinct(Keys())
  {
    var ks := Keys();
    assert forall i :: 0 <= i < |ks| ==> KeyRank(ks[i]) == i;
  }

  /** The first entry at or after `i` whose key is `dong`. */
  function FindEntry(dong: string, i: nat): (r: Option<nat>)
    requires i <= |Entries|
    ensures r.Some? ==> i <= r.value < |Entries| && Entries[r.value].0 == dong
    ensures r.None? ==> forall k :: i <= k < |Entries| ==> Entries[k].0 != dong
    decreases |Entries| - i
  {
    if i == |Entries| then None
    else if Entries[i].0 == dong then Some(i)
    else FindEntry(dong, i + 1)
  }

  /** `getNearbyDongs`: the table's entry for a known dong, otherwise the dong
      alone. For one of the twenty keys the result is exactly that key's
      five distinct names, key first; for any other name it is `[dong]`. */
  function NearbyDongs(dong: string): (names: seq<string>)
    ensures forall k :: 0 <= k < |Entries| && Entries[k].0 == dong ==> names == Entries[k].1
    ensures dong in Keys() ==> GoodEntry(dong, names)
    ensures dong !in Keys() ==> names == [dong]
    ensures 1 <= |names| <= 5 && names[0] == dong && Distinct(names)
  {
    EntriesGood();
    KeysDistinct();
    match FindEntry(dong, 0)
    case Some(k) =>
      assert Keys()[k] == dong;
      Entries[k].1
    case None => [dong]
  }
}

=== FILE: seqs.dfy ===
/** `Array.prototype.filter`, the one collection operation the pages share. */
module Seqs {

  /** The elements of `xs` that `keep` accepts, in their original order: an
      element is in the result exactly when it is in `xs` and accepted. */
  function Filter<T(!new)>(xs: seq<T>, keep: T -> bool): (r: seq<T>)
    ensures |r| <= |xs|
    ensures forall x :: x in r <==> x in xs && keep(x)
  {
    if xs == [] then []
    else
      var rest := Filter(xs[1..], keep);
      assert xs == [xs[0]] + xs[1..];
      if keep(xs[0]) then [xs[0]] + rest else rest
  }

  /** An accepted element occurs in the result as often as in `xs`; a
      rejected one does not occur. */
  lemma {:induction false} FilterCount<T(!new)>(xs: seq<T>, keep: T -> bool, x: T)
    ensures multiset(Filter(xs, keep))[x] == if keep(x) then multiset(xs)[x] else 0
  {
    if xs != [] {
      FilterCount(xs[1..], keep, x);
      assert xs == [xs[0]] + xs[1..];
    }
  }

  /** Filtering a concatenation filters each part and keeps them in order. */
  lemma {:induction false} FilterAppend<T(!new)>(a: seq<T>, b: seq<T>, keep: T -> bool)
    ensures Filter(a + b, keep) == Filter(a, keep) + Filter(b, keep)
  {
    if a != [] {
      assert (a + b)[0] == a[0];
      assert (a + b)[1..] == a[1..] + b;
      FilterAppend(a[1..], b, keep);
      if keep(a[0]) {
        assert Filter(a + b, keep) == [a[0]] + Filter(a[1..] + b, keep);
      } else {
        assert Filter(a + b, keep) == Filter(a[1..] + b, keep);
      }
    } else {
      assert a + b == b;
    }
  }

  /** Filtering twice by the same test filters once. */
  lemma {:induction false} FilterIdempotent<T(!new)>(xs: seq<T>, keep: T -> bool)
    ensures Filter(Filter(xs, keep), keep) == Filter(xs, keep)
  {
    if xs != [] {
      FilterIdempotent(xs[1..], keep);
      if keep(xs[0]) {
        assert ([xs[0]] + Filter(xs[1..], keep))[1..] == Filter(xs[1..], keep);
      }
    }
  }

  /** A test every element passes keeps the whole sequence. */
  lemma {:induction false} FilterKeepsAll<T(!new)>(xs: seq<T>, keep: T -> bool)
    requires forall x :: x in xs ==> keep(x)
    ensures Filter(xs, keep) == xs
  {
    if xs != [] {
      FilterKeepsAll(xs[1..], keep);
      assert [xs[0]] + xs[1..] == xs;
    }
  }
}

=== FILE: text.dfy ===
/** The JavaScript string operations the application relies on:
    `trim`, `split` with a one-character separator, `startsWith`/`endsWith`,
    and the decimal rendering of integers by template literals and `toString`. */
module Text {
  import opened Wrappers

  /** The characters `String.prototype.trim` removes: ECMAScript WhiteSpace
      (tab, vertical tab, form feed, space, no-break space, byte order mark and
      the Unicode space separators) and LineTerminator (LF, CR, LS, PS). */
  predicate IsJsSpace(c: char) {
    || c == '\t' || c == '\n' || c == '\U{B}' || c == '\U{C}' || c == '\r'
    || c == '\U{A0}' || c == ' ' || c == '\U{1680}'
    || ('\U{2000}' <= c <= '\U{200A}')
    || c == '\U{2028}' || c == '\U{2029}' || c == '\U{202F}' || c == '\U{205F}'
    || c == '\U{3000}' || c == '\U{FEFF}'
  }

  /** `s` with its leading JavaScript white space removed. */
  function TrimStart(s: string): (r: string)
    ensures |r| <= |s| && r == s[|s| - |r|..]
    ensures forall k :: 0 <= k < |s| - |r| ==> IsJsSpace(s[k])
    ensures r == [] || !IsJsSpace(r[0])
  {
    if s != [] && IsJsSpace(s[0]) then TrimStart(s[1..]) else s
  }

  /** `s` with its trailing JavaScript white space removed. */
  function TrimEnd(s: string): (r: string)
    ensures |r| <= |s| && r == s[..|r|]
    ensures forall k :: |r| <= k < |s| ==> IsJsSpace(s[k])
    ensures r == [] || !IsJsSpace(r[|r| - 1])
  {
    if s != [] && IsJsSpace(s[|s| - 1]) then TrimEnd(s[..|s| - 1]) else s
  }

  /** `String.prototype.trim`: neither end of the result is white space. */
  function Trim(s: string): (r: string)
    ensures r == [] || (!IsJsSpace(r[0]) && !IsJsSpace(r[|r| - 1]))
  {
    TrimEnd(TrimStart(s))
  }

  /** How many leading characters trimming cuts. */
  function LeadingSpace(s: string): nat {
    |s| - |TrimStart(s)|
  }

  /** The trimmed string is the infix of `s` left once the leading white
      space is cut. */
  lemma TrimInfix(s: string)
    ensures LeadingSpace(s) + |Trim(s)| <= |s|
    ensures Trim(s) == s[LeadingSpace(s)..LeadingSpace(s) + |Trim(s)|]
  {
    var t := TrimStart(s);
    var r := TrimEnd(t);
    assert t == s[|s| - |t|..];
    assert r == t[..|r|];
  }

  /** Every character trimming cuts, at either end, is white space. */
  lemma TrimCutsSpace(s: string)
    ensures forall k :: 0 <= k < LeadingSpace(s) ==> IsJsSpace(s[k])
    ensures LeadingSpace(s) + |Trim(s)| <= |s|
    ensures forall k :: LeadingSpace(s) + |Trim(s)| <= k < |s| ==> IsJsSpace(s[k])
  {
    var t := TrimStart(s);
    var r := TrimEnd(t);
    var a := |s| - |t|;
    assert t == s[a..];
    assert forall k :: a + |r| <= k < |s| ==> s[k] == t[k - a];
  }

  /** Text made only of white space trims to nothing. */
  lemma TrimAllSpace(t: string)
    requires forall k :: 0 <= k < |t| ==> IsJsSpace(t[k])
    ensures Trim(t) == ""
  {
    TrimInfix(t);
  }

  /** `s.startsWith(prefix)`. */
  predicate StartsWith(s: string, prefix: string) {
    |prefix| <= |s| && s[..|prefix|] == prefix
  }

  /** `s.indexOf(c)`, with `None` for -1. */
  function IndexOf(s: string, c: char): (r: Option<nat>)
    ensures r.None? <==> c !in s
    ensures r.Some? ==> r.value < |s| && s[r.value] == c && c !in s[..r.value]
  {
    if s == [] then None
    else if s[0] == c then Some(0)
    else match IndexOf(s[1..], c)
      case None => None
      case Some(i) => Some(i + 1)
  }

  /** `parts.join(sep)`. */
  function Join(parts: seq<string>, sep: char): string {
    if |parts| == 0 then ""
    else if |parts| == 1 then parts[0]
    else parts[0] + [sep] + Join(parts[1..], sep)
  }

  /** `s.split(sep)` for a one-character separator: at least one piece, no
      piece contains the separator, and joining the pieces gives `s` back. */
  function Split(s: string, sep: char): (parts: seq<string>)
    ensures |parts| >= 1
    ensures forall k :: 0 <= k < |parts| ==> sep !in parts[k]
    ensures Join(parts, sep) == s
    decreases |s|
  {
    match IndexOf(s, sep)
    case None => [s]
    case Some(i) =>
      var rest := Split(s[i + 1..], sep);
      var parts := [s[..i]] + rest;
      assert parts[1..] == rest;
      assert s == s[..i] + [sep] + s[i + 1..];
      parts
  }

  /** The converse round trip: separator-free pieces are recovered from their join. */
  lemma {:induction false} SplitJoin(parts: seq<string>, sep: char)
    requires |parts| >= 1
    requires forall k :: 0 <= k < |parts| ==> sep !in parts[k]
    ensures Split(Join(parts, sep), sep) == parts
    decreases |parts|
  {
    if |parts| > 1 {
      var s := Join(parts, sep);
      var head := parts[0];
      assert s == head + [sep] + Join(parts[1..], sep);
      assert s[|head|] == sep;
      assert s[..|head|] == head;
      assert IndexOf(s, sep) == Some(|head|);
      assert s[|head| + 1..] == Join(parts[1..], sep);
      SplitJoin(parts[1..], sep);
      assert [head] + parts[1..] == parts;
    }
  }

  /** The text after the last occurrence of `sep`, or all of `s` when it
      does not occur: a separator-free suffix, preceded by the separator
      whenever `s` holds one. */
  function AfterLast(s: string, sep: char): (r: string)
    ensures sep !in r
    ensures sep !in s ==> r == s
    ensures sep in s ==> |r| < |s| && s[|s| - |r|..] == r && s[|s| - |r| - 1] == sep
    decreases |s|
  {
    match IndexOf(s, sep)
    case None => s
    case Some(i) =>
      var t := s[i + 1..];
      var r := AfterLast(t, sep);
      assert s[|s| - |t|..] == t;
      assert t[|t| - |r|..] == s[|s| - |r|..];
      r
  }

  /** The last element of a non-empty sequence, as `pop` returns it. */
  function Last<T>(xs: seq<T>): T
    requires |xs| >= 1
  {
    xs[|xs| - 1]
  }

  /** `split(sep).pop()` is the text after the last separator. */
  lemma {:induction false} AfterLastIsLastPiece(s: string, sep: char)
    ensures AfterLast(s, sep) == Last(Split(s, sep))
    decreases |s|
  {
    match IndexOf(s, sep)
    case None =>
      assert Split(s, sep) == [s];
      assert AfterLast(s, sep) == s;
    case Some(i) =>
      var parts := Split(s, sep);
      var rest := Split(s[i + 1..], sep);
      assert parts == [s[..i]] + rest;
      assert Last(parts) == Last(rest);
      assert AfterLast(s, sep) == AfterLast(s[i + 1..], sep);
      AfterLastIsLastPiece(s[i + 1..], sep);
      assert AfterLast(s, sep) == Last(parts);
  }

  /** The two halves of a concatenation are recovered by slicing. */
  lemma Halves(a: string, b: string)
    ensures |a + b| == |a| + |b|
    ensures (a + b)[..|a|] == a && (a + b)[|a|..] == b
  {
  }

  predicate IsDigit(c: char) {
    '0' <= c <= '9'
  }

  predicate AllDigits(s: string) {
    forall k :: 0 <= k < |s| ==> IsDigit(s[k])
  }

  /** The character of a decimal digit. */
  function DigitChar(d: nat): (c: char)
    requires d < 10
    ensures IsDigit(c) && c as int - '0' as int == d
  {
    ('0' as int + d) as char
  }

  /** The number a string of decimal digits denotes. */
  function DecimalValue(s: string): nat
    requires AllDigits(s)
  {
    if s == [] then 0
    else DecimalValue(s[..|s| - 1]) * 10 + (s[|s| - 1] as int - '0' as int)
  }

  /** The decimal rendering of a natural number, as a template literal prints
      it: digits only, no leading zero, and reading it back gives `n`. */
  function NatToDecimal(n: nat): (s: string)
    ensures |s| >= 1 && AllDigits(s)
    ensures s[0] != '0' || s == "0"
    ensures DecimalValue(s) == n
  {
    if n < 10 then [DigitChar(n)]
    else
      var front := NatToDecimal(n / 10);
      var s := front + [DigitChar(n % 10)];
      assert s[..|s| - 1] == front;
      s
  }

  /** Digits in canonical form: at least one, and a zero only when it is
      the whole number. */
  predicate NoLeadingZero(d: string) {
    |d| >= 1 && (d[0] != '0' || |d| == 1)
  }

  /** The number a rendered integer denotes: an optional minus sign, then digits. */
  function SignedDecimalValue(s: string): int
    requires s != []
    requires AllDigits(if s[0] == '-' then s[1..] else s)
  {
    if s[0] == '-' then 0 - DecimalValue(s[1..]) as int else DecimalValue(s)
  }

  /** `Number.prototype.toString` for an integer below 10^21 in magnitude: a
      minus sign for negative values, then the decimal digits without a
      leading zero; reading it back gives `i`. */
  function IntToDecimal(i: int): (s: string)
    ensures s != [] && AllDigits(if s[0] == '-' then s[1..] else s)
    ensures SignedDecimalValue(s) == i
    ensures (s[0] == '-') <==> i < 0
    ensures NoLeadingZero(if s[0] == '-' then s[1..] else s)
  {
    if i < 0 then
      var s := "-" + NatToDecimal(-i);
      assert s[1..] == NatToDecimal(-i);
      s
    else NatToDecimal(i)
  }
}

=== FILE: wrappers.dfy ===
/** Failure-carrying datatypes shared by the model, and JavaScript's `||`
    on strings. */
module Wrappers {

  /** A value that may be missing: a JavaScript `null`/`undefined`, or NaN for numbers. */
  datatype Option<+T> = None | Some(value: T) {

    /** The carried value, or `default` when there is none. */
    function GetOr(default: T): T {
      match this
      case Some(v) => v
      case None => default
    }
  }

  /** The outcome of a step that either yields a value or reports why it did not. */
  datatype Result<+T, +E> = Ok(value: T) | Err(error: E)

  /** JavaScript's `a || b` on strings: the empty string is the only falsy one. */
  function Or(a: string, b: string): string {
    if a != "" then a else b
  }

  /** Whether a possibly missing string is truthy: present and non-empty. */
  predicate Truthy(o: Option<string>) {
    o.GetOr("") != ""
  }
}

=== FILE: write_page.dfy ===
/** The stand-alone "write a listing" page: the sign-in check that opens it,
    the saved neighbourhood it prefills, and the validation and record of its
    submit. */
module WritePage {
  import opened Wrappers
  import opened Text
  import Location
  import Listing

  /** The page's form; every field is the input's text. */
  datatype WriteForm = WriteForm(title: string, description: string, price: string,
                                 category: string, location: string, imageUrl: string)

  const WriteDefaultImage := "https://images.unsplash.com/photo-1560393464-5c69a73c5770?w=400&h=400&fit=crop"

  /** The page after `checkAuth`: sent to the sign-in page, or signed in as
      the user with this id and showing this form. */
  datatype Opened = RedirectToSignIn | Editing(userId: string, form: WriteForm)

  /** `checkAuth`: without a user the visitor is sent to sign in; otherwise
      a neighbourhood saved by the header fills the location field and the
      rest of the form is kept. */
  function CheckAuth(user: Option<string>, storage: Location.Storage, form: WriteForm): (r: Opened)
    ensures user.None? <==> r.RedirectToSignIn?
    ensures r.Editing? ==> r.userId == user.value
    ensures r.Editing? && Location.IsSaved(storage, Location.SelectedDongKey) ==>
      r.form == form.(location := storage[Location.SelectedDongKey])
    ensures r.Editing? && !Location.IsSaved(storage, Location.SelectedDongKey) ==> r.form == form
  {
    match user
    case None => RedirectToSignIn
    case Some(id) =>
      if Location.IsSaved(storage, Location.SelectedDongKey)
      then Editing(id, form.(location := storage[Location.SelectedDongKey]))
      else Editing(id, form)
  }

  /** Why a submit was refused, in the order the checks run. */
  datatype WriteError = NotSignedIn | MissingTitle | MissingPrice

  /** The price check of this page, given `Number` of the price text as the
      `<=` comparison computes it (`None` for NaN): the field must be
      non-empty and its value must not be zero or below. Text that is not a
      number is let through, since NaN is not `<= 0`. */
  predicate PriceRefused(price: string, number: Option<real>) {
    price == "" || (number.Some? && number.value <= 0.0)
  }

  /** `handleSubmit`, given the signed-in user, the form, `Number` of the
      price text and `parseInt` of it (`None` for NaN). Sign-in is checked
      first, then the trimmed title, then the price; an accepted record is
      for sale, carries the integer-parsed price and the location as typed,
      and gets this page's default image when the image field is empty. */
  function Submit(user: Option<string>, form: WriteForm, number: Option<real>, parsed: Option<int>)
    : (r: Result<Listing.ItemInsert, WriteError>)
    ensures user.None? ==> r == Err(NotSignedIn)
    ensures user.Some? && Trim(form.title) == "" ==> r == Err(MissingTitle)
    ensures user.Some? && Trim(form.title) != "" && PriceRefused(form.price, number) ==> r == Err(MissingPrice)
    ensures r.Ok? <==> user.Some? && Trim(form.title) != "" && !PriceRefused(form.price, number)
    ensures r.Ok? ==>
      && r.value.userId == user.value && r.value.status == "selling"
      && r.value.title == form.title && r.value.description == form.description
      && r.value.category == form.category && r.value.location == form.location
      && (parsed.Some? ==> r.value.price == Listing.Finite(parsed.value as real))
      && (parsed.None? ==> r.value.price == Listing.NaN)
      && r.value.imageUrl == (if form.imageUrl == "" then WriteDefaultImage else form.imageUrl)
  {
    if user.None? then Err(NotSignedIn)
    else if Trim(form.title) == "" then Err(MissingTitle)
    else if PriceRefused(form.price, number) then Err(MissingPrice)
    else
      var price := match parsed case Some(n) => Listing.Finite(n as real) case None => Listing.NaN;
      Ok(Listing.ItemInsert(user.value, form.title, form.description, price, form.category,
                            if form.imageUrl == "" then WriteDefaultImage else form.imageUrl,
                            form.location, "selling"))
  }

  /** A zero price is refused here but accepted by the home page's forms. */
  lemma ZeroPriceRules(user: string, form: WriteForm)
    requires Trim(form.title) != "" && form.price != ""
    ensures Submit(Some(user), form, Some(0.0), Some(0)) == Err(MissingPrice)
    ensures Listing.CheckPrice(Some(0.0)).Ok?
  {
  }

  /** A title of white space alone (or an empty one) is refused even when a
      user is signed in and the price is fine. */
  lemma BlankTitleRefused(user: string, form: WriteForm, number: Option<real>, parsed: Option<int>)
    requires forall k :: 0 <= k < |form.title| ==> IsJsSpace(form.title[k])
    ensures Submit(Some(user), form, number, parsed) == Err(MissingTitle)
  {
    TrimAllSpace(form.title);
  }

  /** After the header saves a non-empty pick, opening the page signed in
      prefills the location with that dong. */
  lemma PickedDongIsPrefilled(s: Location.LocationState, dong: string, user: string, form: WriteForm)
    requires dong != ""
    ensures var r := CheckAuth(Some(user), Location.SelectDong(s, dong).storage, form);
      r.Editing? && r.form.location == dong
  {
  }
}
